=== FILE: README.md ===
# Black-Litterman portfolio toolkit: a Dafny model of its computational core

The repository builds stock portfolios three ways and compares them:
- Markowitz mean-variance;
- Black-Litterman, which blends market-implied returns with investor views;
- an equal-weight benchmark.

This project models the parts of it that compute, and proves what they promise. There are three of them:

- **The Black-Litterman inputs** (`BlackLittermanOptimizer` in `black_litterman.py`):
  - equal market weights;
  - implied returns Π = λ Σ w;
  - the view matrix P and view vector Q, built by looking up each ticker's position;
  - confidence defaults and broadcasting;
  - the diagonal uncertainty matrix Ω with entries (1 − c)/c;
  - the optimiser's starting point and bounds;
  - the VaR, CVaR and drawdown figures of `get_portfolio_metrics`.
- **The risk metrics** (`RiskMetricsCalculator` in `advanced_metrics.py`):
  - maximum drawdown, Sortino, Calmar, CAGR and recovery factor;
  - information ratio and tracking error;
  - beta and alpha;
  - parametric VaR and CVaR;
  - profit factor, win rate and payoff ratio;
  - the key selection of `comprehensive_analysis`.
- **The rolling backtest** (`PortfolioBacktester` in `portfolio_optimization/backtesting/rolling_backtest.py`):
  - the window schedule;
  - the annualised training statistics;
  - the default views and the 0.7/0.3 view blend;
  - the return of each portfolio over a test slice;
  - the loop that collects those returns;
  - the information ratios of the result.

## How the model is built

Returns and prices are exact reals. A float64 division can give +inf, −inf or NaN, so the metrics return a `Metric`: `Finite(v) | PosInf | NegInf | NaN`. `Numeric.Div` applies the IEEE rules.

A Python exception becomes an `Err` of `Common.Result`, with one `Error` case per cause:
- `IndexError` on the default views;
- `ValueError` from `ticker_list.index` or from `range` with step 0;
- `KeyError` on a missing confidence;
- `ZeroDivisionError` for `1 / len(...)` or for a confidence of zero;
- an empty `np.min` or `iloc[-1]`.

The library routines are function parameters:
- `sqrt`, `pow`, `norm.ppf` and `np.percentile`;
- the SLSQP optimiser.

Each parameter carries only the facts the proofs need:
- `Numeric.IsSqrt`: non-negative, and zero only at zero;
- `RiskMetrics.IsNormalQuantile`: the sign of the quantile on either side of the median. `RiskMetrics.NormalPpf` adds the float64 edges of `norm.ppf`: −inf at 0, +inf at 1 and NaN outside [0, 1];
- `BlackLitterman.IsPercentile`: never below the minimum;
- `Backtest.OneWeightPerAsset`: one weight per asset.

Modules:

| file | module | models |
|---|---|---|
| common.dfy | Common | errors, views, `ticker_list.index` |
| numeric.dfy | Numeric | float64 division outcomes, scaling, sign lemmas |
| series.dfy | Series | sums, means, population and sample moments, filters, columns, dot products |
| drawdown.dfy | Drawdown | cumulative wealth, running peak, maximum drawdown |
| risk_metrics.dfy | RiskMetrics | `advanced_metrics.py` |
| black_litterman.dfy | BlackLitterman | `black_litterman.py` |
| schedule.dfy | Schedule | the `range(W, T, F)` cursors and the training and test windows; because the last test slice may be shorter than F days, the loop runs ⌈(T − W)/F⌉ periods |
| backtest.dfy | Backtest | `run_backtest`, `_calculate_returns_vol`, `calculate_information_ratio` |

The model follows the code. Where the code does something its authors evidently did not intend, both the code as written and the intended definition are modelled (see "## Findings").

A note on the code: `sortino_ratio` returns +inf early when no return falls below the target. The float division gives +inf in one more case: every shortfall is equal, so the downside deviation is 0, and the mean excess return is positive. `RiskMetrics.SortinoInfinite` states this exact condition.

## Model

| member | source | states |
|---|---|---|
| Common.IndexOf | black_litterman.py:162 | `ticker_list.index(t)`: absent exactly when `t` is not a ticker; otherwise the position of the first occurrence of `t` |
| Drawdown.Peak | advanced_metrics.py:92 | the running maximum of cumulative wealth is at least the wealth of every day so far and equals the wealth of one of them |
| Drawdown.MaximumDrawdown | advanced_metrics.py:85-95 | on a numpy array, an empty series raises (`np.min` of an empty array), and only an empty one does |
| Drawdown.WealthPositive | advanced_metrics.py:91 | cumulative wealth stays positive while every return exceeds −1 |
| Drawdown.WorstDrawdownBelowEveryDay | advanced_metrics.py:93-95 | the minimum drawdown is at most the drawdown of every day |
| Drawdown.WorstDrawdownAttained | advanced_metrics.py:95 | the minimum drawdown is the drawdown of some day |
| Drawdown.NoDrawdownIff | advanced_metrics.py:85-95 | with every return above −1, the maximum drawdown is 0 exactly when no day after the first loses; otherwise it is negative |
| Drawdown.GainsOnlyNoDrawdown | advanced_metrics.py:85-95 | a series without a losing day has a maximum drawdown of exactly 0 |
| Drawdown.MaximumDrawdownBounds | advanced_metrics.py:85-95 | with every return above −1, the maximum drawdown is finite and lies in (−1, 0] |
| RiskMetrics.SortinoTarget | advanced_metrics.py:40-41 | the target is the given one, else the daily rate (one 252nd of the annual rate) or the annual risk-free rate |
| RiskMetrics.Downside | advanced_metrics.py:43-44 | the downside excess returns are empty exactly when no return lies below the target |
| RiskMetrics.Sortino | advanced_metrics.py:46-47 | +inf when no return lies below the target |
| RiskMetrics.SortinoInfinite | advanced_metrics.py:34-54 | +inf exactly when there is no shortfall, or the shortfalls do not vary and the mean excess return is positive |
| RiskMetrics.SortinoSign | advanced_metrics.py:49-54 | with a positive downside deviation the ratio is finite with the sign of the mean excess return, daily or annual |
| RiskMetrics.Cagr | advanced_metrics.py:180-189 | an empty series raises (`iloc[-1]`), and only an empty one does |
| RiskMetrics.CagrSign | advanced_metrics.py:180-189 | with every return above −1 the CAGR exceeds −1, and it is positive, zero or negative exactly as final wealth is above, at or below 1, given only that a power of a positive base keeps the base's side of 1 |
| RiskMetrics.GrowthPerDrawdown | advanced_metrics.py:200-203 | +inf for a zero drawdown; finite for a negative one |
| RiskMetrics.RecoveryFactor | advanced_metrics.py:191-203 | an empty series raises, and only an empty one does; a zero maximum drawdown gives +inf |
| RiskMetrics.RecoveryFactorCases | advanced_metrics.py:191-203 | +inf exactly when no day after the first loses; otherwise finite with the sign of the CAGR |
| RiskMetrics.RecoveryFactorGrowth | advanced_metrics.py:191-203 | with a drawdown, the recovery factor is finite, positive exactly when the series ends above its starting wealth and negative exactly when it ends below it |
| RiskMetrics.CalmarAsWritten | advanced_metrics.py:56-69 | Calmar as written raises exactly for an empty series |
| RiskMetrics.Calmar | advanced_metrics.py:56-69 | the corrected Calmar ratio raises exactly for an empty series |
| RiskMetrics.CalmarIsRecoveryFactor | advanced_metrics.py:56-69 | the corrected Calmar ratio (CAGR over drawdown size) equals the recovery factor on every series |
| RiskMetrics.CalmarAsWrittenOvershoots | advanced_metrics.py:62-63 | as written, Calmar is 252 times the corrected ratio, and so differs from it whenever there is a drawdown and the growth is non-zero |
| RiskMetrics.ActiveReturns | advanced_metrics.py:77 | active returns have the portfolio's length and add back to it with the benchmark; different lengths raise |
| RiskMetrics.ActiveRatio | advanced_metrics.py:77-83 | the ratio of mean active return to tracking error is NaN exactly when there are no active returns |
| RiskMetrics.ActiveRatioCases | advanced_metrics.py:77-83 | the information ratio is finite, is 0 exactly when the tracking error or the mean active return is 0, and otherwise has the sign of the mean active return |
| RiskMetrics.InformationRatio | advanced_metrics.py:71-83 | NaN exactly for empty input; different lengths raise |
| RiskMetrics.InformationRatioOfItself | advanced_metrics.py:71-83 | a portfolio against itself has information ratio 0 and tracking error 0 |
| RiskMetrics.TrackingError | advanced_metrics.py:153-160 | NaN exactly for empty input; different lengths raise |
| RiskMetrics.BetaAsWritten | advanced_metrics.py:124-136 | beta as written is 0 when the market variance is 0, NaN exactly for an empty market and finite otherwise; different lengths raise |
| RiskMetrics.BetaAsWrittenOfMarket | advanced_metrics.py:130-131 | as written, the market's beta on itself is n/(n−1), never 1 |
| RiskMetrics.BetaAsWrittenExample | advanced_metrics.py:130-136 | the market series [0, 1] has a beta of 2 on itself as written |
| RiskMetrics.Beta | advanced_metrics.py:133-134 | corrected beta: 0 for a flat market, NaN exactly for an empty one, finite otherwise |
| RiskMetrics.BetaOfMarket | advanced_metrics.py:128 | the corrected beta of the market on itself is 1 |
| RiskMetrics.Alpha | advanced_metrics.py:138-151 | the corrected alpha, built on the corrected beta: NaN exactly for an empty market; different lengths raise |
| RiskMetrics.AlphaAsWritten | advanced_metrics.py:138-151 | alpha as written, built on beta as written: NaN exactly for an empty market; different lengths raise |
| RiskMetrics.AlphaFlatMarket | advanced_metrics.py:144-151 | against a flat market, alpha is the mean return less the CAPM base (the given base, else the risk-free rate), as written and corrected alike |
| RiskMetrics.MarketHasNoAlpha | advanced_metrics.py:142 | the corrected half: with the corrected beta the market itself has zero alpha |
| RiskMetrics.AlphaAsWrittenOfMarket | advanced_metrics.py:138-151 | as written, the market's alpha on itself is −(mean − rf)/(n − 1), zero only when the market's mean return equals the risk-free rate |
| RiskMetrics.AlphaAsWrittenExample | advanced_metrics.py:130-151 | the market series [0, 1] at a zero risk-free rate has an alpha of −0.5 on itself as written |
| RiskMetrics.ValueAtRiskAsWritten | advanced_metrics.py:105-113 | VaR as written is finite exactly for a non-empty series and a confidence in (0, 1), where it is mean − ppf(1 − c)·std; it is NaN for an empty series, a confidence outside [0, 1], or a confidence of 0 or 1 on a flat series; for varying returns a confidence of 1 gives +inf and 0 gives −inf |
| RiskMetrics.ValueAtRisk | advanced_metrics.py:105-113 | the corrected VaR, mean + ppf(1 − c)·std, has the same finite and NaN cases; for varying returns a confidence of 1 gives −inf and 0 gives +inf |
| RiskMetrics.ValueAtRiskSides | advanced_metrics.py:105-113 | for a confidence in (1/2, 1), the corrected VaR lies at or below the mean (strictly when returns vary), and the VaR as written lies at or above it |
| RiskMetrics.ValueAtRiskAsWrittenExample | advanced_metrics.py:111-112 | for returns −1% and +1% the 95% VaR as written is a gain; the corrected one is a loss |
| RiskMetrics.TailMean | advanced_metrics.py:122 | the mean of the returns at or below a threshold is NaN exactly when none is, and otherwise is finite and lies between the smallest return and the threshold |
| RiskMetrics.ConditionalValueAtRisk | advanced_metrics.py:115-122 | the corrected CVaR, with the tail cut at the corrected VaR: a finite CVaR needs a non-empty series and a confidence in [0, 1]; at or below a finite VaR; finite at confidence 0, where the VaR is +inf, only as the mean of every return |
| RiskMetrics.ConditionalValueAtRiskAsWritten | advanced_metrics.py:115-122 | CVaR as written, with the tail cut at VaR as written: a finite CVaR needs a non-empty series and a confidence in [0, 1]; at or below a finite VaR; finite at confidence 1, where the VaR is +inf, only as the mean of every return |
| RiskMetrics.ConditionalValueAtRiskAsWrittenFinite | advanced_metrics.py:115-122 | as written, for a non-empty series and a confidence in (1/2, 1), CVaR is finite and lies between the smallest return and VaR as written |
| RiskMetrics.ConditionalValueAtRiskAsWrittenExample | advanced_metrics.py:111-122 | returns −1% and +1% at 95%: CVaR is 0.0 as written and NaN with the corrected threshold |
| RiskMetrics.ConditionalValueAtRiskBounds | advanced_metrics.py:119-122 | the corrected half: with the corrected threshold, CVaR is finite exactly when some return is at or below VaR; it then lies at or below VaR, which lies at or below the mean |
| RiskMetrics.ProfitFactor | advanced_metrics.py:205-217 | the profit factor is +inf or a finite non-negative number, never NaN or −inf |
| RiskMetrics.ProfitFactorCases | advanced_metrics.py:205-217 | +inf exactly with gains and no losses; 0 exactly with no gains; finite and positive with gains and losses; never NaN or −inf |
| RiskMetrics.WinRate | advanced_metrics.py:221 | NaN exactly for an empty series |
| RiskMetrics.WinRateBounds | advanced_metrics.py:219-221 | for a non-empty series, a fraction in [0, 1]: 1 exactly when every return is positive, 0 exactly when none is |
| RiskMetrics.PayoffRatio | advanced_metrics.py:223-238 | the payoff ratio is +inf or a finite non-negative number |
| RiskMetrics.PayoffRatioCases | advanced_metrics.py:223-238 | +inf exactly when there is no losing return (the second +inf branch is unreachable); otherwise finite, non-negative, and 0 exactly without a gain |
| RiskMetrics.ReportKeys | advanced_metrics.py:240-297 | the 18 base keys come first; Information Ratio and Tracking Error appear exactly with a benchmark, Beta and Alpha exactly with a market series |
| BlackLitterman.EqualWeights | black_litterman.py:60 | n entries, each of which times n is 1; an empty universe raises |
| BlackLitterman.EqualWeightsSumToOne | black_litterman.py:295 | equal weights sum to one |
| BlackLitterman.ImpliedReturns | black_litterman.py:97 | one implied return per covariance row, the i-th being λ times row i dotted with the weights; a covariance row whose width is not the number of weights raises |
| BlackLitterman.ImpliedReturnsLinear | black_litterman.py:89-97 | implied returns are additive in the risk aversion |
| BlackLitterman.ImpliedReturnsEqualWeights | black_litterman.py:60-97 | under equal weights each implied return is λ times that asset's average covariance with the universe |
| BlackLitterman.ImpliedReturnsExample | black_litterman.py:63-97 | three assets with covariance 0.04 I give implied returns of 0.1/3 each |
| BlackLitterman.FirstUnknown | black_litterman.py:161-162 | the first view ticker outside the universe: it is unknown, and every earlier view ticker is known; absent exactly when every view ticker is known |
| BlackLitterman.BuildViews | black_litterman.py:157-164 | P is K by N and Q has K entries with Q_i the i-th view's value; an unknown ticker raises, and only then |
| BlackLitterman.ViewRows | black_litterman.py:161-163 | row i of P holds 1.0 exactly at the first position of view i's ticker |
| BlackLitterman.DotUnitRow | black_litterman.py:163 | a unit row picks out one entry of any vector |
| BlackLitterman.ViewMatrixSelects | black_litterman.py:157-164 | P x is, view by view, the entry of x at the viewed ticker |
| BlackLitterman.ResolveConfidence | black_litterman.py:121-124 | with no confidence every view gets 0.25; a scalar is broadcast to every viewed ticker; a dictionary is used as given |
| BlackLitterman.ConfidenceError | black_litterman.py:168-171 | no error exactly when every view has a non-zero confidence |
| BlackLitterman.Uncertainty | black_litterman.py:171 | u · c = 1 − c |
| BlackLitterman.UncertaintySign | black_litterman.py:170-171 | the uncertainty is positive exactly for a confidence in (0, 1), and zero exactly at 1 |
| BlackLitterman.BuildOmega | black_litterman.py:166-171 | Ω is K by K and diagonal with Ω_ii c_i = 1 − c_i; a missing or zero confidence raises, and only then |
| BlackLitterman.OmegaPositiveDiagonal | black_litterman.py:166-171 | Ω's diagonal is positive exactly where the confidence lies in (0, 1) |
| BlackLitterman.DefaultOmega | black_litterman.py:121-171 | with default confidence Ω exists and every diagonal entry is 3 |
| BlackLitterman.BlackLittermanInputs | black_litterman.py:151-171 | the inputs are Π, the P/Q system and Ω of the three builders; they fail exactly for a covariance row of the wrong width, an unknown view ticker, or a view whose resolved confidence is missing or zero, with the first of these as the error; with default confidence they exist exactly when every view ticker is known |
| BlackLitterman.OptimizerSetup | black_litterman.py:219-223 | x0 and the bounds have one entry per asset, each bound being (min, max); no assets raises |
| BlackLitterman.OptimizerStartFeasible | black_litterman.py:214-223 | x0 satisfies the budget constraint, and lies within the bounds whenever they admit 1/n |
| BlackLitterman.DailyReturns | black_litterman.py:248 | one portfolio return per day, day t's being day t's asset returns dotted with the weights |
| BlackLitterman.PortfolioMetrics | black_litterman.py:242-260 | fails exactly on mismatched shapes or on no daily rows |
| BlackLitterman.PortfolioMetricsBounds | black_litterman.py:250-260 | CVaR is finite and at most the 5th percentile; with daily returns above −1 the maximum drawdown is finite and in (−1, 0] |
| Schedule.Cursors | portfolio_optimization/backtesting/rolling_backtest.py:98 | the k-th cursor is W + kF < T; there are none exactly when T ≤ W; their count n satisfies (n−1)F < T−W ≤ nF |
| Schedule.CursorCount | portfolio_optimization/backtesting/rolling_backtest.py:98 | the loop visits ⌈(T − W)/F⌉ cursors, or none when T ≤ W |
| Schedule.CursorCountExample | portfolio_optimization/backtesting/rolling_backtest.py:98 | T = 504, W = 252 and F = 63 give four periods |
| Schedule.WindowAt | portfolio_optimization/backtesting/rolling_backtest.py:101-109 | the training slice has W rows and ends where the test slice starts; the test slice ends at min(i + F, T) |
| Schedule.Windows | portfolio_optimization/backtesting/rolling_backtest.py:98-109 | one window per cursor, the k-th at cursor W + kF |
| Schedule.WindowShapes | portfolio_optimization/backtesting/rolling_backtest.py:101-112 | every training slice has exactly W rows, and every test slice is non-empty, at most F rows long and inside the data, so neither break fires |
| Schedule.TestSlicesTile | portfolio_optimization/backtesting/rolling_backtest.py:107-109 | consecutive test slices meet end to start, from W to T |
| Schedule.TestSlicesDisjoint | portfolio_optimization/backtesting/rolling_backtest.py:106-109 | an earlier test slice ends before a later one starts |
| Schedule.EveryDayScored | portfolio_optimization/backtesting/rolling_backtest.py:98-109 | every day in [W, T) lies in some test slice |
| Schedule.EveryDayScoredOnce | portfolio_optimization/backtesting/rolling_backtest.py:107-109 | no day lies in two test slices |
| Backtest.DefaultViews | portfolio_optimization/backtesting/rolling_backtest.py:85-89 | with at least two tickers, the dictionary {t0: 0.12, t1: 0.10} with unique keys, t1's entry always present; fewer tickers raise |
| Backtest.ResolveViews | portfolio_optimization/backtesting/rolling_backtest.py:85 | given views are used as they are; only the default views can fail |
| Backtest.DefaultViewsKnown | portfolio_optimization/backtesting/rolling_backtest.py:85-89 | the default views name tickers of the universe only |
| Backtest.Blended | portfolio_optimization/backtesting/rolling_backtest.py:130 | the blend lies between the training mean and the view, and equals the mean exactly when they agree |
| Backtest.BlendFrom | portfolio_optimization/backtesting/rolling_backtest.py:127-130 | an unknown view ticker raises (the first one met); un-viewed entries are kept; each viewed entry is 0.7 mean + 0.3 view of its last view |
| Backtest.Blend | portfolio_optimization/backtesting/rolling_backtest.py:127-130 | the same for the whole views dictionary, starting from the training means |
| Backtest.BlendAgreeingViews | portfolio_optimization/backtesting/rolling_backtest.py:127-130 | views equal to the training means leave them unchanged |
| Backtest.AnnualisedStats | portfolio_optimization/backtesting/rolling_backtest.py:44-48 | N means and an N by N covariance; mean j is 252 times column j's mean, and entry (j, k) is 252 times the sample (ddof 1) covariance of columns j and k |
| Backtest.AnnualisedCovarianceShape | portfolio_optimization/backtesting/rolling_backtest.py:47 | the annualised covariance is symmetric with a non-negative diagonal |
| Backtest.AnnualisedConstantAsset | portfolio_optimization/backtesting/rolling_backtest.py:46-47 | an asset returning c every day has annualised mean 252c and zero variance |
| Backtest.PeriodReturnAsWritten | portfolio_optimization/backtesting/rolling_backtest.py:136-140 | as written, a period return is 252 times the grand mean of the test slice times the sum of the weights |
| Backtest.PeriodReturnAsWrittenIgnoresAllocation | portfolio_optimization/backtesting/rolling_backtest.py:138-140 | as written, two weight vectors with the same sum get the same period return |
| Backtest.PeriodReturnAsWrittenExample | portfolio_optimization/backtesting/rolling_backtest.py:136-140 | all money in an asset that gained 1%, beside one that gained 3%: 5.04 as written, 2.52 earned |
| Backtest.PeriodReturn | portfolio_optimization/backtesting/rolling_backtest.py:138 | the corrected period return: when every asset has the same mean daily return c, it is 252 c times the sum of the weights |
| Backtest.PeriodReturnSingleAsset | portfolio_optimization/backtesting/rolling_backtest.py:138 | holding one asset earns 252 times its mean daily test return |
| Backtest.EqualWeightUnaffected | portfolio_optimization/backtesting/rolling_backtest.py:140 | for equal weights the written and the corrected period return agree |
| Backtest.RowAndColumnTotals | portfolio_optimization/backtesting/rolling_backtest.py:136-138 | the grand total of the test array is the same by rows and by columns |
| Backtest.PeriodAt | portfolio_optimization/backtesting/rolling_backtest.py:100-145 | one period fails exactly for an empty universe or an unknown view ticker, the empty universe first; the recorded date lies in the test slice; the Markowitz and Black-Litterman entries are the as-written scores of the optimiser's weights for the annualised statistics of the W training rows and for their blended means, and the equal-weight entry equals what the equal-weight portfolio earned |
| Backtest.LoopExitCount | portfolio_optimization/backtesting/rolling_backtest.py:98 | the loop leaves after ⌈(T − W)/F⌉ iterations |
| Backtest.ScorePeriod | portfolio_optimization/backtesting/rolling_backtest.py:100-145 | the pass at the next cursor fails exactly when the universe is empty or a view names an unknown ticker; otherwise its period extends the run in cursor order |
| Backtest.RunPeriods | portfolio_optimization/backtesting/rolling_backtest.py:98-145 | the loop stops after ⌈(T − W)/F⌉ periods with the k-th taken at cursor W + kF, or fails exactly when some period runs and fails |
| Backtest.CollectRecorded | portfolio_optimization/backtesting/rolling_backtest.py:142-152 | spreading the periods over the four result lists keeps entry k of every list from the k-th period |
| Backtest.RunBacktest | portfolio_optimization/backtesting/rolling_backtest.py:84-172 | IndexError for default views with fewer than two tickers; then ValueError for F = 0; then the first period's error when a period runs and fails; and ValueError from `np.max` in the summary when no period runs (T ≤ W); on success the four lists have ⌈(T − W)/F⌉ > 0 entries, entry k being the period at cursor W + kF |
| Backtest.Summarise | portfolio_optimization/backtesting/rolling_backtest.py:192-207 | different lengths raise; the active return is NaN exactly for an empty run |
| Backtest.SummaryCases | portfolio_optimization/backtesting/rolling_backtest.py:195-201 | every figure is finite; the ratio is 0 exactly when the tracking error or the mean active return is 0, and otherwise has the mean's sign |
| Backtest.SummaryOfItself | portfolio_optimization/backtesting/rolling_backtest.py:195-207 | a model measured against itself reports 0, 0 and 0 |
| Backtest.InformationRatios | portfolio_optimization/backtesting/rolling_backtest.py:189-209 | reported for Markowitz and Black-Litterman only, each the summary of that list; fails exactly on a length mismatch |

## Left out

- I/O is not modelled: data download (`yf.download`), `pct_change` and printing. The figures `_print_backtest_summary` prints are not modelled either, because they are only displayed. Its one effect on the result is modelled: with no periods, `np.max` of an empty list raises, so `run_backtest` fails with `NoPeriods`.
- The SLSQP optimisation (`minimize`) is a parameter. The model assumes only that it returns one weight per asset, so nothing is proved about optimality, the weights' sum or their bounds.
- The posterior of `apply_black_litterman` (its `np.linalg.inv` calls) is a general matrix inverse. The model stops at the inputs: Π, P, Q and Ω. When a confidence is 1, Ω's entry is 0 and `inv(omega)` is singular. That case is not modelled.
- `sharpe_ratio`, `volatility`, `variance`, `skewness`, `kurtosis`, `calmar_drawer`, `calculate_sharpe_ratios` and the module-level helpers of `advanced_metrics.py` are outside the modelled core. Only the key of each in `comprehensive_analysis` is modelled.
- The float64 rounding of every sum and product is not modelled, because the model uses exact reals. Infinities and NaN that come from division are modelled.
- numpy broadcasting of a length-1 operand is read as a length mismatch, and so is pandas index alignment. Column order is assumed to follow `ticker_list`.
- `Drawdown.MaximumDrawdown` follows numpy array semantics: it fails on an empty array and propagates NaN. On a pandas Series, as `comprehensive_analysis` passes, `np.min` skips NaN and returns NaN for an empty series instead of raising; that path is not modelled.
- `Backtest.RunBacktest` requires W ≥ 2 and F ≥ 0. A window shorter than two rows gives a NaN sample covariance, which the model does not carry. A negative step makes `range` walk backwards.
- `RiskMetrics.Cagr`, `RiskMetrics.Calmar` and `RiskMetrics.RecoveryFactor` treat `**` as the parameter `pow`. For a negative final wealth the float64 power is NaN; the model leaves that value to `pow`. `RiskMetrics.CagrSign` assumes only `RiskMetrics.IsPower`, which speaks of a positive base and exponent.
- Values inside the report records come from the library parameters. Examples are the Sharpe ratio and volatility of `get_portfolio_metrics`, and Sortino's `sqrt(252)` factor. Only the properties stated above are proved about them.
- `BlackLitterman.PortfolioMetrics` takes the expected returns as a parameter. The default `returns=None`, which reads the optimiser's stored Black-Litterman returns, is object state and is left to the caller.
- `Backtest.PeriodAt` records the row position of the test slice's last day. The repository records the date label at that row.

## Findings

| source | as written | input that shows it | evidently intended | confidence | as-written member | corrected member |
|---|---|---|---|---|---|---|
| portfolio_optimization/backtesting/rolling_backtest.py:138-140 | `test_ret.mean()` of the 2-D test array is the mean over all assets and days. Every weight multiplies that one number, so each model's period return is 252 · Σw · (grand mean). | A one-day test slice [[0.01, 0.03]] with weights [1, 0] scores 5.04, but the holding earned 2.52. | 252 · Σ_j w_j · mean of column j, as the Black-Litterman and Markowitz comparison needs. | not executed | Backtest.PeriodReturnAsWrittenExample | Backtest.PeriodReturnSingleAsset |
| advanced_metrics.py:130-131 | The covariance uses ddof = 1 (`np.cov`) and the variance ddof = 0 (`np.var`), so the market's beta on itself is n/(n−1). | The market series [0, 1] gives a beta of 2 on itself. | Both moments with the same ddof, so that beta(m, m) = 1. | not executed | RiskMetrics.BetaAsWrittenOfMarket | RiskMetrics.BetaOfMarket |
| advanced_metrics.py:63 | The CAGR is formed with the exponent 252/n and then multiplied by 252 again. | Any series with a drawdown and non-zero growth: its Calmar ratio is 252 times the documented CAGR over the size of the maximum drawdown. | The CAGR over the size of the maximum drawdown, which equals the recovery factor. | not executed | RiskMetrics.CalmarAsWrittenOvershoots | RiskMetrics.CalmarIsRecoveryFactor |
| advanced_metrics.py:111-112 | `mean − ppf(1 − c) · std`, with ppf(0.05) < 0, gives a threshold above the mean. | For returns [−0.01, 0.01] at 95%, the VaR is a gain. | `mean + ppf(1 − c) · std`, the lower (1 − c) quantile of returns. | not executed | RiskMetrics.ValueAtRiskAsWrittenExample | RiskMetrics.ValueAtRiskSides |
| advanced_metrics.py:147-151 | Alpha is built on the beta as written, so the market's alpha on itself is −(mean − rf)/(n − 1) instead of 0. | The market series [0, 1] at a zero risk-free rate has an alpha of −0.5 on itself. | Alpha on a beta with matching ddof, so that the market itself has zero alpha. | not executed | RiskMetrics.AlphaAsWrittenExample | RiskMetrics.MarketHasNoAlpha |
| advanced_metrics.py:121-122 | The tail is cut at the VaR as written, which lies at or above the mean, so the "tail" holds at least every return at or below the mean. | Returns [−0.01, 0.01] at 95%, with ppf(0.05) below −1: both days are in the tail and CVaR is 0.0. | The mean of the returns at or below the lower (1 − c) quantile. | not executed | RiskMetrics.ConditionalValueAtRiskAsWrittenExample | RiskMetrics.ConditionalValueAtRiskBounds |

Each finding is modelled twice, the code as written beside the intended definition:
- `Backtest.PeriodAt`, and so the whole run, records `Backtest.PeriodReturnAsWritten`, because that is what `backtest_results` holds. `Backtest.PeriodReturn` is what a holding earns; `Backtest.EqualWeightUnaffected` shows the two agree for the equal-weight list.
- `RiskMetrics.BetaAsWritten` and `RiskMetrics.AlphaAsWritten` are the code; `RiskMetrics.Beta` and `RiskMetrics.Alpha` are the corrected pair.
- `RiskMetrics.ValueAtRiskAsWritten` and `RiskMetrics.ConditionalValueAtRiskAsWritten` are the code; `RiskMetrics.ValueAtRisk` and `RiskMetrics.ConditionalValueAtRisk` are the corrected pair.
- `RiskMetrics.CalmarAsWritten` is the code; `RiskMetrics.Calmar` is the corrected ratio.

=== FILE: backtest.dfy ===
/** `PortfolioBacktester` (portfolio_optimization/backtesting/rolling_backtest.py): the
    annualised training statistics, the default views and the view blend used for the
    Black-Litterman portfolio, the return of each portfolio over one test slice, the
    rolling loop itself and the information ratios of its results.

    The SLSQP optimiser is a parameter `solve` of which the model only assumes that it
    returns one weight per asset; the price rows are exact reals. */
module Backtest {
  import opened Common
  import opened Numeric
  import opened Series
  import opened Schedule
  import BlackLitterman
  import RiskMetrics

  /** The default views: the first ticker is expected to return 12% a year, the second 10%. */
  const FirstDefaultView: real := 0.12
  const SecondDefaultView: real := 0.10

  /** The blended expected return keeps 70% of the training mean and takes 30% from the view. */
  const MeanWeight: real := 0.7
  const ViewWeight: real := 0.3

  // ---------------------------------------------------------------------------
  // Views
  // ---------------------------------------------------------------------------

  /** The views dictionary `run_backtest` builds when it is given none. A dictionary keeps
      one entry per key, so two equal leading tickers leave a single entry holding the
      later value; fewer than two tickers raise IndexError. */
  function DefaultViews(tickers: seq<Ticker>): (r: Result<seq<View>>)
    ensures r.Err? <==> |tickers| < 2
    ensures r.Err? ==> r.error == TooFewTickers
    ensures r.Ok? ==> DistinctTickers(r.value)
    ensures r.Ok? ==> forall i :: 0 <= i < |r.value| ==> r.value[i].ticker == tickers[0] || r.value[i].ticker == tickers[1]
    ensures r.Ok? ==> View(tickers[1], SecondDefaultView) in r.value
    ensures r.Ok? && tickers[0] != tickers[1] ==> View(tickers[0], FirstDefaultView) in r.value
  {
    if |tickers| < 2 then Err(TooFewTickers)
    else if tickers[0] == tickers[1] then Ok([View(tickers[1], SecondDefaultView)])
    else Ok([View(tickers[0], FirstDefaultView), View(tickers[1], SecondDefaultView)])
  }

  /** The views the run uses: the caller's, or the default ones. */
  function ResolveViews(tickers: seq<Ticker>, views: Option<seq<View>>): (r: Result<seq<View>>)
    ensures r.Err? <==> views.None? && |tickers| < 2
    ensures views.Some? ==> r == Ok(views.value)
  {
    if views.Some? then Ok(views.value) else DefaultViews(tickers)
  }

  /** The default views only name tickers of the universe, so they never make the blend fail. */
  lemma DefaultViewsKnown(tickers: seq<Ticker>)
    requires |tickers| >= 2
    ensures var v := DefaultViews(tickers).value;
            forall i :: 0 <= i < |v| ==> v[i].ticker in tickers
  {
  }

  // ---------------------------------------------------------------------------
  // The view blend
  // ---------------------------------------------------------------------------

  /** `0.7 * mean_returns[idx] + 0.3 * view_return`: a point between the two. */
  function Blended(mean: real, view: real): (b: real)
    ensures mean <= view ==> mean <= b <= view
    ensures view <= mean ==> view <= b <= mean
    ensures b == mean <==> mean == view
  {
    MeanWeight * mean + ViewWeight * view
  }

  /** Index `j` is not the position of any view's ticker. */
  predicate Unviewed(tickers: seq<Ticker>, views: seq<View>, j: nat)
  {
    forall i :: 0 <= i < |views| ==> IndexOf(tickers, views[i].ticker) != Some(j)
  }

  /** No later view has the same ticker as view `i` (always so for a dictionary). */
  predicate LastFor(views: seq<View>, i: nat)
    requires i < |views|
  {
    forall k :: i < k < |views| ==> views[k].ticker != views[i].ticker
  }

  /** The loop over `views_dict.items()`, writing into `adj` while always reading the
      unblended training mean `mu`; `ticker_list.index` raises for an unknown ticker. */
  function BlendFrom(mu: seq<real>, adj: seq<real>, tickers: seq<Ticker>, views: seq<View>)
    : (r: Result<seq<real>>)
    requires |adj| == |mu| == |tickers|
    ensures r.Err? <==> exists i :: 0 <= i < |views| && views[i].ticker !in tickers
    ensures r.Err? ==> r.error == UnknownTicker(BlackLitterman.FirstUnknown(tickers, views).value)
    ensures r.Ok? ==> |r.value| == |mu|
    ensures r.Ok? ==> forall j :: 0 <= j < |mu| && Unviewed(tickers, views, j) ==> r.value[j] == adj[j]
    ensures r.Ok? ==> forall i :: 0 <= i < |views| && LastFor(views, i) ==>
              var idx := IndexOf(tickers, views[i].ticker).value;
              r.value[idx] == Blended(mu[idx], views[i].value)
    decreases |views|
  {
    if |views| == 0 then Ok(adj)
    else
      match IndexOf(tickers, views[0].ticker)
      case None => Err(UnknownTicker(views[0].ticker))
      case Some(idx) =>
        var next := adj[idx := Blended(mu[idx], views[0].value)];
        var rest := BlendFrom(mu, next, tickers, views[1..]);
        if rest.Ok? then
          assert forall i :: 1 <= i < |views| ==> views[i] == views[1..][i - 1];
          BlendStepKeeps(mu, adj, tickers, views, idx, rest.value);
          BlendStepBlends(mu, adj, tickers, views, idx, rest.value);
          rest
        else
          rest
  }

  /** An entry no view touches keeps its value through the first view and the rest. */
  lemma BlendStepKeeps(mu: seq<real>, adj: seq<real>, tickers: seq<Ticker>, views: seq<View>, idx: nat,
                       rest: seq<real>)
    requires |adj| == |mu| == |tickers| == |rest| && |views| > 0 && idx < |mu|
    requires IndexOf(tickers, views[0].ticker) == Some(idx)
    requires forall j :: 0 <= j < |mu| && Unviewed(tickers, views[1..], j) ==>
               rest[j] == adj[idx := Blended(mu[idx], views[0].value)][j]
    ensures forall j :: 0 <= j < |mu| && Unviewed(tickers, views, j) ==> rest[j] == adj[j]
  {
    forall j | 0 <= j < |mu| && Unviewed(tickers, views, j) ensures rest[j] == adj[j] {
      UnviewedTail(tickers, views, j);
    }
  }

  /** The entry of every last view holds its blend after the first view and the rest. */
  lemma BlendStepBlends(mu: seq<real>, adj: seq<real>, tickers: seq<Ticker>, views: seq<View>, idx: nat,
                        rest: seq<real>)
    requires |adj| == |mu| == |tickers| == |rest| && |views| > 0 && idx < |mu|
    requires forall i :: 0 <= i < |views| ==> views[i].ticker in tickers
    requires IndexOf(tickers, views[0].ticker) == Some(idx)
    requires forall j :: 0 <= j < |mu| && Unviewed(tickers, views[1..], j) ==>
               rest[j] == adj[idx := Blended(mu[idx], views[0].value)][j]
    requires forall i :: 0 <= i < |views[1..]| && LastFor(views[1..], i) ==>
               var ix := IndexOf(tickers, views[1..][i].ticker).value;
               rest[ix] == Blended(mu[ix], views[1..][i].value)
    ensures forall i :: 0 <= i < |views| && LastFor(views, i) ==>
              var ix := IndexOf(tickers, views[i].ticker).value;
              rest[ix] == Blended(mu[ix], views[i].value)
  {
    forall i | 0 <= i < |views| && LastFor(views, i)
      ensures rest[IndexOf(tickers, views[i].ticker).value]
              == Blended(mu[IndexOf(tickers, views[i].ticker).value], views[i].value)
    {
      if i == 0 {
        LastViewUnviewedLater(tickers, views, idx);
      } else {
        LastForTail(views, i);
      }
    }
  }

  lemma UnviewedTail(tickers: seq<Ticker>, views: seq<View>, j: nat)
    requires |views| > 0 && Unviewed(tickers, views, j)
    ensures Unviewed(tickers, views[1..], j)
    ensures IndexOf(tickers, views[0].ticker) != Some(j)
  {
    forall i | 0 <= i < |views| - 1 ensures IndexOf(tickers, views[1..][i].ticker) != Some(j) {
      assert views[1..][i] == views[i + 1];
    }
  }

  lemma LastViewUnviewedLater(tickers: seq<Ticker>, views: seq<View>, idx: nat)
    requires |views| > 0 && LastFor(views, 0) && IndexOf(tickers, views[0].ticker) == Some(idx)
    ensures Unviewed(tickers, views[1..], idx)
  {
    forall k | 0 <= k < |views| - 1 ensures IndexOf(tickers, views[1..][k].ticker) != Some(idx) {
      assert views[1..][k] == views[k + 1];
    }
  }

  lemma LastForTail(views: seq<View>, i: nat)
    requires 0 < i < |views| && LastFor(views, i)
    ensures LastFor(views[1..], i - 1) && views[1..][i - 1] == views[i]
  {
    forall k | i - 1 < k < |views| - 1 ensures views[1..][k].ticker != views[1..][i - 1].ticker {
      assert views[1..][k] == views[k + 1];
    }
  }

  /** `bl_returns_adj`: the training means with every viewed ticker's entry blended. */
  function Blend(mu: seq<real>, tickers: seq<Ticker>, views: seq<View>): (r: Result<seq<real>>)
    requires |mu| == |tickers|
    ensures r.Err? <==> exists i :: 0 <= i < |views| && views[i].ticker !in tickers
    ensures r.Ok? ==> |r.value| == |mu|
    ensures r.Ok? ==> forall j :: 0 <= j < |mu| && Unviewed(tickers, views, j) ==> r.value[j] == mu[j]
    ensures r.Ok? && DistinctTickers(views) ==>
              forall i :: 0 <= i < |views| ==>
                var idx := IndexOf(tickers, views[i].ticker).value;
                r.value[idx] == Blended(mu[idx], views[i].value)
  {
    var r := BlendFrom(mu, mu, tickers, views);
    assert DistinctTickers(views) ==> forall i :: 0 <= i < |views| ==> LastFor(views, i);
    r
  }

  /** Every blended entry lies between the training mean and the view; in particular views
      that agree with the training means leave them unchanged. */
  lemma BlendAgreeingViews(mu: seq<real>, tickers: seq<Ticker>, views: seq<View>)
    requires |mu| == |tickers| && DistinctTickers(views)
    requires forall i :: 0 <= i < |views| ==> views[i].ticker in tickers
    requires forall i :: 0 <= i < |views| ==> views[i].value == mu[IndexOf(tickers, views[i].ticker).value]
    ensures Blend(mu, tickers, views) == Ok(mu)
  {
    var r := Blend(mu, tickers, views);
    forall j | 0 <= j < |mu| ensures r.value[j] == mu[j] {
      if !Unviewed(tickers, views, j) {
        var i :| 0 <= i < |views| && IndexOf(tickers, views[i].ticker) == Some(j);
        assert r.value[j] == Blended(mu[j], views[i].value);
      }
    }
    assert r.value == mu;
  }

  // ---------------------------------------------------------------------------
  // Training statistics
  // ---------------------------------------------------------------------------

  /** Annualised expected returns and covariance of a training window. */
  datatype Estimates = Estimates(means: seq<real>, covariance: seq<seq<real>>)

  /** `_calculate_returns_vol`: 252 times the column means and 252 times the sample
      (ddof = 1) covariance of the columns. */
  function AnnualisedStats(train: seq<seq<real>>, n: nat): (e: Estimates)
    requires |train| >= 2 && Rectangular(train, n)
    ensures |e.means| == n && |e.covariance| == n && Rectangular(e.covariance, n)
    ensures forall j :: 0 <= j < n ==> e.means[j] == RiskMetrics.TradingDays * ColumnMeans(train, n)[j]
    ensures forall j, k :: 0 <= j < n && 0 <= k < n ==>
              e.covariance[j][k] == RiskMetrics.TradingDays * SampleCovariance(Column(train, n, j), Column(train, n, k))
  {
    Estimates(
      seq(n, j requires 0 <= j < n => RiskMetrics.TradingDays * Mean(Column(train, n, j))),
      seq(n, j requires 0 <= j < n =>
        seq(n, k requires 0 <= k < n => RiskMetrics.TradingDays * SampleCovariance(Column(train, n, j), Column(train, n, k)))))
  }

  /** The annualised covariance is symmetric with a non-negative diagonal. */
  lemma AnnualisedCovarianceShape(train: seq<seq<real>>, n: nat)
    requires |train| >= 2 && Rectangular(train, n)
    ensures var c := AnnualisedStats(train, n).covariance;
            forall j, k :: 0 <= j < n && 0 <= k < n ==> c[j][k] == c[k][j]
    ensures var c := AnnualisedStats(train, n).covariance;
            forall j :: 0 <= j < n ==> c[j][j] >= 0.0
  {
    var c := AnnualisedStats(train, n).covariance;
    forall j, k | 0 <= j < n && 0 <= k < n ensures c[j][k] == c[k][j] {
      var x := Column(train, n, j);
      var y := Column(train, n, k);
      CrossDeviationsSymmetric(x, y, Mean(x), Mean(y));
    }
    forall j | 0 <= j < n ensures c[j][j] >= 0.0 {
      var x := Column(train, n, j);
      CrossDeviationsDiagonal(x, Mean(x));
      SquaredDeviationsNonNegative(x, Mean(x));
      NonNegativeQuotient(SquaredDeviations(x, Mean(x)), (|x| - 1) as real);
    }
  }

  lemma NonNegativeQuotient(x: real, y: real)
    requires x >= 0.0 && y > 0.0
    ensures RiskMetrics.TradingDays * (x / y) >= 0.0
  {
    QuotientSign(x, y);
  }

  /** An asset whose daily return is the same constant `c` on every training day has an
      annualised mean of `252 c` and no variance. */
  lemma AnnualisedConstantAsset(train: seq<seq<real>>, n: nat, j: nat, c: real)
    requires |train| >= 2 && Rectangular(train, n) && j < n
    requires forall t :: 0 <= t < |train| ==> train[t][j] == c
    ensures AnnualisedStats(train, n).means[j] == RiskMetrics.TradingDays * c
    ensures AnnualisedStats(train, n).covariance[j][j] == 0.0
  {
    var x := Column(train, n, j);
    MeanBounds(x, c, c);
    CrossDeviationsDiagonal(x, Mean(x));
    SquaredDeviationsFlat(x, Mean(x));
  }

  // ---------------------------------------------------------------------------
  // The return of one portfolio over one test slice
  // ---------------------------------------------------------------------------

  /** The sum of every row. */
  function RowSums(rows: seq<seq<real>>): (r: seq<real>)
    ensures |r| == |rows|
    ensures forall t :: 0 <= t < |rows| ==> r[t] == Sum(rows[t])
  {
    seq(|rows|, t requires 0 <= t < |rows| => Sum(rows[t]))
  }

  /** `test_ret.mean()` on the two-dimensional array of the test slice: the mean of every
      entry, over all days and all assets together. */
  function GrandMean(rows: seq<seq<real>>, n: nat): real
    requires |rows| > 0 && n > 0 && Rectangular(rows, n)
  {
    Sum(RowSums(rows)) / ((|rows| as real) * (n as real))
  }

  /** `np.sum(weights * test_ret.mean()) * 252` as written: every weight multiplies the same
      grand mean. */
  function PeriodReturnAsWritten(w: seq<real>, test: seq<seq<real>>, n: nat): (r: real)
    requires |w| == n > 0 && |test| > 0 && Rectangular(test, n)
    ensures r == RiskMetrics.TradingDays * GrandMean(test, n) * Sum(w)
  {
    DotConstant(w, GrandMean(test, n));
    Dot(w, Constant(n, GrandMean(test, n))) * RiskMetrics.TradingDays
  }

  /** As written, the period return sees the weights only through their sum, so the
      Markowitz, Black-Litterman and equal-weight portfolios, each fully invested, score
      the same return in every period. */
  lemma PeriodReturnAsWrittenIgnoresAllocation(w1: seq<real>, w2: seq<real>, test: seq<seq<real>>, n: nat)
    requires |w1| == |w2| == n > 0 && |test| > 0 && Rectangular(test, n)
    requires Sum(w1) == Sum(w2)
    ensures PeriodReturnAsWritten(w1, test, n) == PeriodReturnAsWritten(w2, test, n)
  {
    DotConstant(w1, GrandMean(test, n));
    DotConstant(w2, GrandMean(test, n));
  }

  /** The annualised return of weights `w` held over the test slice: each weight times the
      mean daily return of its own asset. */
  function PeriodReturn(w: seq<real>, test: seq<seq<real>>, n: nat): (r: real)
    requires |w| == n && |test| > 0 && Rectangular(test, n)
    ensures n > 0 && (forall j :: 0 <= j < n ==> ColumnMeans(test, n)[j] == ColumnMeans(test, n)[0])
            ==> r == RiskMetrics.TradingDays * ColumnMeans(test, n)[0] * Sum(w)
  {
    var means := ColumnMeans(test, n);
    DotUniform(w, means);
    Dot(w, means) * RiskMetrics.TradingDays
  }

  /** Against a vector whose entries are all equal, a dot product only sees the weights' sum. */
  lemma DotUniform(w: seq<real>, x: seq<real>)
    requires |w| == |x|
    ensures |x| > 0 && (forall j :: 0 <= j < |x| ==> x[j] == x[0]) ==> Dot(w, x) == x[0] * Sum(w)
  {
    if |x| > 0 && forall j :: 0 <= j < |x| ==> x[j] == x[0] {
      assert x == Constant(|x|, x[0]);
      DotConstant(w, x[0]);
    }
  }

  /** Holding a single asset earns 252 times that asset's mean daily return. */
  lemma PeriodReturnSingleAsset(test: seq<seq<real>>, n: nat, j: nat)
    requires j < n && |test| > 0 && Rectangular(test, n)
    ensures PeriodReturn(BlackLitterman.UnitRow(n, j), test, n) == RiskMetrics.TradingDays * Mean(Column(test, n, j))
  {
    BlackLitterman.DotUnitRow(ColumnMeans(test, n), j);
  }

  /** One asset that gains 1% and one that gains 3% in a one-day test slice, with all money
      in the first: as written the period scores 5.04 (the average of both assets), the
      holding itself earned 2.52. */
  lemma PeriodReturnAsWrittenExample()
    ensures PeriodReturnAsWritten([1.0, 0.0], [[0.01, 0.03]], 2) == 5.04
    ensures PeriodReturn([1.0, 0.0], [[0.01, 0.03]], 2) == 2.52
  {
    var test := [[0.01, 0.03]];
    assert RowSums(test) == [0.04];
    assert Sum(RowSums(test)) == 0.04;
    assert GrandMean(test, 2) == 0.02;
    assert Constant(2, 0.02) == [0.02, 0.02];
    assert Column(test, 2, 0) == [0.01];
    assert Column(test, 2, 1) == [0.03];
    assert ColumnMeans(test, 2) == [0.01, 0.03];
  }

  /** The sum of every column. */
  function ColumnSums(rows: seq<seq<real>>, n: nat): (r: seq<real>)
    requires Rectangular(rows, n)
    ensures |r| == n
    ensures forall j :: 0 <= j < n ==> r[j] == Sum(Column(rows, n, j))
  {
    seq(n, j requires 0 <= j < n => Sum(Column(rows, n, j)))
  }

  /** Element-wise sum of two equally long series. */
  function Plus(a: seq<real>, b: seq<real>): (r: seq<real>)
    requires |a| == |b|
    ensures |r| == |a|
    ensures forall i :: 0 <= i < |a| ==> r[i] == a[i] + b[i]
  {
    seq(|a|, i requires 0 <= i < |a| => a[i] + b[i])
  }

  lemma {:induction false} SumPlus(a: seq<real>, b: seq<real>)
    requires |a| == |b|
    ensures Sum(Plus(a, b)) == Sum(a) + Sum(b)
  {
    if |a| > 0 {
      assert Plus(a, b)[1..] == Plus(a[1..], b[1..]);
      SumPlus(a[1..], b[1..]);
    }
  }

  /** Adding up a table row by row or column by column gives the same total. */
  lemma {:induction false} RowAndColumnTotals(rows: seq<seq<real>>, n: nat)
    requires Rectangular(rows, n)
    ensures Sum(RowSums(rows)) == Sum(ColumnSums(rows, n))
  {
    if |rows| == 0 {
      SumConstant(n, 0.0);
      assert ColumnSums(rows, n) == Constant(n, 0.0);
    } else {
      var rest := rows[1..];
      assert RowSums(rows)[1..] == RowSums(rest);
      RowAndColumnTotals(rest, n);
      forall j | 0 <= j < n ensures ColumnSums(rows, n)[j] == rows[0][j] + ColumnSums(rest, n)[j] {
        assert Column(rows, n, j)[1..] == Column(rest, n, j);
      }
      assert ColumnSums(rows, n) == Plus(rows[0], ColumnSums(rest, n));
      SumPlus(rows[0], ColumnSums(rest, n));
    }
  }

  lemma {:induction false} SumOfQuotients(a: seq<real>, b: seq<real>, d: real)
    requires |a| == |b| && d > 0.0
    requires forall i :: 0 <= i < |a| ==> b[i] == a[i] / d
    ensures Sum(b) == Sum(a) / d
  {
    if |a| > 0 {
      SumOfQuotients(a[1..], b[1..], d);
      AddQuotients(a[0], Sum(a[1..]), d);
    }
  }

  lemma AddQuotients(x: real, y: real, d: real)
    requires d > 0.0
    ensures x / d + y / d == (x + y) / d
  {
  }

  lemma InverseOfProduct(s: real, t: real, n: real)
    requires t > 0.0 && n > 0.0
    ensures 1.0 / n * (s / t) == s / (t * n)
  {
  }

  /** The grand mean is the right figure for the equal-weight portfolio only: for equal
      weights the written formula and the intended one agree. */
  lemma EqualWeightUnaffected(test: seq<seq<real>>, n: nat)
    requires n > 0 && |test| > 0 && Rectangular(test, n)
    ensures var w := BlackLitterman.EqualWeights(n).value;
            PeriodReturn(w, test, n) == PeriodReturnAsWritten(w, test, n)
  {
    EqualWeightDotGrandMean(test, n);
    EqualWeightDotColumnMeans(test, n);
  }

  lemma EqualWeightDotGrandMean(test: seq<seq<real>>, n: nat)
    requires n > 0 && |test| > 0 && Rectangular(test, n)
    ensures var w := BlackLitterman.EqualWeights(n).value;
            Dot(w, Constant(n, GrandMean(test, n))) == GrandMean(test, n)
  {
    var w := BlackLitterman.EqualWeights(n).value;
    BlackLitterman.EqualWeightsSumToOne(n);
    DotConstant(w, GrandMean(test, n));
  }

  lemma EqualWeightDotColumnMeans(test: seq<seq<real>>, n: nat)
    requires n > 0 && |test| > 0 && Rectangular(test, n)
    ensures var w := BlackLitterman.EqualWeights(n).value;
            Dot(w, ColumnMeans(test, n)) == GrandMean(test, n)
  {
    EqualWeightDot(test, n);
    AverageOfColumnMeans(test, n);
  }

  /** Equal weights scale the sum of the column means by `1 / n`. */
  lemma EqualWeightDot(test: seq<seq<real>>, n: nat)
    requires n > 0 && |test| > 0 && Rectangular(test, n)
    ensures var w := BlackLitterman.EqualWeights(n).value;
            Dot(w, ColumnMeans(test, n)) == 1.0 / (n as real) * Sum(ColumnMeans(test, n))
  {
    var w := BlackLitterman.EqualWeights(n).value;
    assert w == Constant(n, 1.0 / (n as real));
    DotConstantLeft(ColumnMeans(test, n), 1.0 / (n as real));
  }

  /** The average of the column means is the mean of every entry. */
  lemma AverageOfColumnMeans(test: seq<seq<real>>, n: nat)
    requires n > 0 && |test| > 0 && Rectangular(test, n)
    ensures 1.0 / (n as real) * Sum(ColumnMeans(test, n)) == GrandMean(test, n)
  {
    var t := |test| as real;
    var nn := n as real;
    var means := Sum(ColumnMeans(test, n));
    var total := Sum(RowSums(test));
    var grand := GrandMean(test, n);
    assert grand == total / (t * nn) by { GrandMeanIsAverage(test, n); }
    assert means == total / t by { SumOfColumnMeans(test, n); }
    AverageStep(means, total, t, nn, grand);
  }

  /** The arithmetic of the lemma above, on plain reals. */
  lemma AverageStep(means: real, total: real, t: real, n: real, grand: real)
    requires t > 0.0 && n > 0.0
    requires means == total / t && grand == total / (t * n)
    ensures 1.0 / n * means == grand
  {
    InverseOfProduct(total, t, n);
  }

  lemma GrandMeanIsAverage(test: seq<seq<real>>, n: nat)
    requires n > 0 && |test| > 0 && Rectangular(test, n)
    ensures GrandMean(test, n) == Sum(RowSums(test)) / ((|test| as real) * (n as real))
  {
  }

  /** The column means add up to the grand total over the number of days. */
  lemma SumOfColumnMeans(test: seq<seq<real>>, n: nat)
    requires n > 0 && |test| > 0 && Rectangular(test, n)
    ensures Sum(ColumnMeans(test, n)) == Sum(RowSums(test)) / (|test| as real)
  {
    var t := |test| as real;
    var means := ColumnMeans(test, n);
    var sums := ColumnSums(test, n);
    forall j | 0 <= j < n ensures means[j] == sums[j] / t {
      assert |Column(test, n, j)| == |test|;
    }
    SumOfQuotients(sums, means, t);
    RowAndColumnTotals(test, n);
  }

  // ---------------------------------------------------------------------------
  // The rolling loop
  // ---------------------------------------------------------------------------

  /** What the model relies on about the optimiser: it returns one weight per asset. */
  ghost predicate OneWeightPerAsset(solve: (seq<real>, seq<seq<real>>) -> seq<real>)
  {
    forall mu, cov :: |solve(mu, cov)| == |mu|
  }

  /** The outcome of one rebalancing: each portfolio's test-slice return as the program
      scores it (`PeriodReturnAsWritten`) and the row position of the slice's last day. */
  datatype Period = Period(markowitz: real, blackLitterman: real, equalWeight: real, date: nat)

  /** A run fails in its first period, and then in every period, when the universe is empty
      or a view names a ticker outside it. */
  predicate PeriodFails(tickers: seq<Ticker>, views: seq<View>)
  {
    |tickers| == 0 || exists v :: 0 <= v < |views| && views[v].ticker !in tickers
  }

  /** The error that failure raises: the optimiser's `1 / n_assets` comes before the blend. */
  function PeriodError(tickers: seq<Ticker>, views: seq<View>): Error
    requires PeriodFails(tickers, views)
  {
    if |tickers| == 0 then EmptyUniverse else UnknownTicker(BlackLitterman.FirstUnknown(tickers, views).value)
  }

  /** The period a test slice scores, as the program scores it, for the two optimised
      allocations and the equal-weight one; the equal-weight figure is also what that
      portfolio earned. */
  function ScoreSlice(markowitz: seq<real>, blackLitterman: seq<real>, test: seq<seq<real>>,
                      n: nat, date: nat): (p: Period)
    requires |markowitz| == |blackLitterman| == n > 0 && |test| > 0 && Rectangular(test, n)
    ensures p.markowitz == PeriodReturnAsWritten(markowitz, test, n)
    ensures p.blackLitterman == PeriodReturnAsWritten(blackLitterman, test, n)
    ensures p.equalWeight == PeriodReturn(BlackLitterman.EqualWeights(n).value, test, n)
    ensures p.date == date
  {
    var equal := BlackLitterman.EqualWeights(n).value;
    EqualWeightUnaffected(test, n);
    Period(PeriodReturnAsWritten(markowitz, test, n), PeriodReturnAsWritten(blackLitterman, test, n),
           PeriodReturnAsWritten(equal, test, n), date)
  }

  /** One pass of the loop body at cursor `i`: the training statistics of the `W` rows
      before `i`, the optimiser's Markowitz weights on them and its weights on the blended
      means, each scored as the program scores it; the equal-weight figure is also what
      that portfolio earned. */
  function PeriodAt(rows: seq<seq<real>>, tickers: seq<Ticker>, views: seq<View>, i: nat,
                    windowSize: nat, frequency: nat,
                    solve: (seq<real>, seq<seq<real>>) -> seq<real>): (p: Result<Period>)
    requires 2 <= windowSize <= i < |rows| && frequency > 0
    requires Rectangular(rows, |tickers|) && OneWeightPerAsset(solve)
    ensures p.Err? <==> PeriodFails(tickers, views)
    ensures p.Err? ==> p.error == PeriodError(tickers, views)
    ensures p.Ok? ==> i <= p.value.date < |rows| && p.value.date < i + frequency
    ensures p.Ok? ==> |tickers| > 0
                      && var test := rows[i..WindowAt(i, windowSize, frequency, |rows|).testEnd];
                         |test| > 0 && Rectangular(test, |tickers|)
                         && p.value.equalWeight
                            == PeriodReturn(BlackLitterman.EqualWeights(|tickers|).value, test, |tickers|)
                         && var est := AnnualisedStats(rows[i - windowSize..i], |tickers|);
                            Blend(est.means, tickers, views).Ok?
                            && p.value.markowitz == PeriodReturnAsWritten(solve(est.means, est.covariance), test, |tickers|)
                            && p.value.blackLitterman
                               == PeriodReturnAsWritten(solve(Blend(est.means, tickers, views).value, est.covariance),
                                                        test, |tickers|)
  {
    var n := |tickers|;
    var win := WindowAt(i, windowSize, frequency, |rows|);
    var train := rows[i - windowSize..i];
    var test := rows[i..win.testEnd];
    RectangularSlice(rows, n, i - windowSize, i);
    RectangularSlice(rows, n, i, win.testEnd);
    var est := AnnualisedStats(train, n);
    if n == 0 then Err(EmptyUniverse)
    else
      var markowitz := solve(est.means, est.covariance);
      match Blend(est.means, tickers, views)
      case Err(e) => Err(e)
      case Ok(adjusted) =>
        var blackLitterman := solve(adjusted, est.covariance);
        Ok(ScoreSlice(markowitz, blackLitterman, test, n, win.testEnd - 1))
  }

  /** `backtest_results`: one entry per period in every list. */
  datatype Results = Results(markowitz: seq<real>, blackLitterman: seq<real>,
                             equalWeight: seq<real>, dates: seq<nat>)

  /** Entry `k` of every list of `res` is the outcome of the period at cursor `W + k F`. */
  ghost predicate Recorded(rows: seq<seq<real>>, tickers: seq<Ticker>, views: seq<View>,
                           windowSize: nat, frequency: nat,
                           solve: (seq<real>, seq<seq<real>>) -> seq<real>, res: Results)
    requires windowSize >= 2 && frequency > 0 && Rectangular(rows, |tickers|) && OneWeightPerAsset(solve)
  {
    && |res.markowitz| == |res.blackLitterman| == |res.equalWeight| == |res.dates|
    && forall k :: 0 <= k < |res.dates| ==>
         Cursor(windowSize, frequency, k) < |rows|
         && PeriodAt(rows, tickers, views, Cursor(windowSize, frequency, k), windowSize, frequency, solve)
            == Ok(Period(res.markowitz[k], res.blackLitterman[k], res.equalWeight[k], res.dates[k]))
  }

  /** Period `k` of `periods` is the one at cursor `W + k F`. */
  ghost predicate PeriodsInOrder(rows: seq<seq<real>>, tickers: seq<Ticker>, views: seq<View>,
                                 windowSize: nat, frequency: nat,
                                 solve: (seq<real>, seq<seq<real>>) -> seq<real>, periods: seq<Period>)
    requires windowSize >= 2 && frequency > 0 && Rectangular(rows, |tickers|) && OneWeightPerAsset(solve)
  {
    forall k :: 0 <= k < |periods| ==>
      Cursor(windowSize, frequency, k) < |rows|
      && PeriodAt(rows, tickers, views, Cursor(windowSize, frequency, k), windowSize, frequency, solve) == Ok(periods[k])
  }

  /** Recording the outcome at the next cursor keeps the periods in cursor order. */
  lemma PeriodsInOrderAppend(rows: seq<seq<real>>, tickers: seq<Ticker>, views: seq<View>,
                             windowSize: nat, frequency: nat,
                             solve: (seq<real>, seq<seq<real>>) -> seq<real>, periods: seq<Period>, p: Period)
    requires windowSize >= 2 && frequency > 0 && Rectangular(rows, |tickers|) && OneWeightPerAsset(solve)
    requires PeriodsInOrder(rows, tickers, views, windowSize, frequency, solve, periods)
    requires Cursor(windowSize, frequency, |periods|) < |rows|
    requires PeriodAt(rows, tickers, views, Cursor(windowSize, frequency, |periods|), windowSize, frequency, solve) == Ok(p)
    ensures PeriodsInOrder(rows, tickers, views, windowSize, frequency, solve, periods + [p])
  {
    var ps := periods + [p];
    forall k | 0 <= k < |ps|
      ensures Cursor(windowSize, frequency, k) < |rows|
      ensures PeriodAt(rows, tickers, views, Cursor(windowSize, frequency, k), windowSize, frequency, solve) == Ok(ps[k])
    {
      if k < |periods| {
        assert ps[k] == periods[k];
      } else {
        assert k == |periods|;
      }
    }
  }

  /** `backtest_results`: the periods spread over four lists. */
  function Collect(periods: seq<Period>): (r: Results)
    ensures |r.markowitz| == |r.blackLitterman| == |r.equalWeight| == |r.dates| == |periods|
    ensures forall k :: 0 <= k < |periods| ==>
              periods[k] == Period(r.markowitz[k], r.blackLitterman[k], r.equalWeight[k], r.dates[k])
  {
    Results(seq(|periods|, k requires 0 <= k < |periods| => periods[k].markowitz),
            seq(|periods|, k requires 0 <= k < |periods| => periods[k].blackLitterman),
            seq(|periods|, k requires 0 <= k < |periods| => periods[k].equalWeight),
            seq(|periods|, k requires 0 <= k < |periods| => periods[k].date))
  }

  lemma CollectRecorded(rows: seq<seq<real>>, tickers: seq<Ticker>, views: seq<View>,
                        windowSize: nat, frequency: nat,
                        solve: (seq<real>, seq<seq<real>>) -> seq<real>, periods: seq<Period>)
    requires windowSize >= 2 && frequency > 0 && Rectangular(rows, |tickers|) && OneWeightPerAsset(solve)
    requires PeriodsInOrder(rows, tickers, views, windowSize, frequency, solve, periods)
    ensures Recorded(rows, tickers, views, windowSize, frequency, solve, Collect(periods))
  {
    var r := Collect(periods);
    forall k | 0 <= k < |periods|
      ensures PeriodAt(rows, tickers, views, Cursor(windowSize, frequency, k), windowSize, frequency, solve)
              == Ok(Period(r.markowitz[k], r.blackLitterman[k], r.equalWeight[k], r.dates[k]))
    {
      assert periods[k] == Period(r.markowitz[k], r.blackLitterman[k], r.equalWeight[k], r.dates[k]);
    }
  }

  /** The loop stops at the first cursor at or past the end, after `ceil((T - W) / F)`
      periods. */
  lemma LoopExitCount(windowSize: nat, days: nat, frequency: nat, n: nat)
    requires frequency > 0 && windowSize + n * frequency >= days
    requires n > 0 ==> windowSize + n * frequency - frequency < days
    requires n == 0 ==> windowSize >= days
    ensures n == PeriodCount(windowSize, days, frequency)
  {
    if days > windowSize {
      StepMultiple(n - 1, frequency);
      CeilingUnique(days - windowSize, frequency, n);
    }
  }

  /** One pass of the loop body at the cursor after `periods`. */
  method ScorePeriod(rows: seq<seq<real>>, tickers: seq<Ticker>, views: seq<View>,
                     windowSize: nat, frequency: nat,
                     solve: (seq<real>, seq<seq<real>>) -> seq<real>, periods: seq<Period>)
    returns (p: Result<Period>)
    requires windowSize >= 2 && frequency > 0 && Rectangular(rows, |tickers|) && OneWeightPerAsset(solve)
    requires Cursor(windowSize, frequency, |periods|) < |rows|
    requires PeriodsInOrder(rows, tickers, views, windowSize, frequency, solve, periods)
    ensures p.Err? <==> PeriodFails(tickers, views)
    ensures p.Err? ==> p.error == PeriodError(tickers, views)
    ensures p.Ok? ==> PeriodsInOrder(rows, tickers, views, windowSize, frequency, solve, periods + [p.value])
  {
    p := PeriodAt(rows, tickers, views, Cursor(windowSize, frequency, |periods|), windowSize, frequency, solve);
    if p.Ok? {
      PeriodsInOrderAppend(rows, tickers, views, windowSize, frequency, solve, periods, p.value);
    }
  }

  /** The `for i in range(W, T, F)` loop for resolved views: the periods in cursor order,
      or the error of the first period when periods fail. */
  method RunPeriods(rows: seq<seq<real>>, tickers: seq<Ticker>, views: seq<View>,
                    windowSize: nat, frequency: nat,
                    solve: (seq<real>, seq<seq<real>>) -> seq<real>) returns (r: Result<seq<Period>>)
    requires windowSize >= 2 && frequency > 0 && Rectangular(rows, |tickers|) && OneWeightPerAsset(solve)
    ensures r.Err? <==> windowSize < |rows| && PeriodFails(tickers, views)
    ensures r.Err? ==> r.error == PeriodError(tickers, views)
    ensures r.Ok? ==> |r.value| == PeriodCount(windowSize, |rows|, frequency)
    ensures r.Ok? ==> PeriodsInOrder(rows, tickers, views, windowSize, frequency, solve, r.value)
  {
    var periods: seq<Period> := [];
    var i := windowSize;
    while i < |rows|
      invariant i == Cursor(windowSize, frequency, |periods|)
      invariant |periods| > 0 ==> i - frequency < |rows| && !PeriodFails(tickers, views)
      invariant PeriodsInOrder(rows, tickers, views, windowSize, frequency, solve, periods)
      decreases |rows| - i
    {
      var p := ScorePeriod(rows, tickers, views, windowSize, frequency, solve, periods);
      if p.Err? {
        return Err(p.error);
      }
      CursorStep(windowSize, frequency, |periods|);
      periods := periods + [p.value];
      i := i + frequency;
    }
    LoopExitCount(windowSize, |rows|, frequency, |periods|);
    r := Ok(periods);
  }

  /** `run_backtest(views_dict)`. Raises IndexError for the default views of a universe of
      fewer than two tickers, ValueError for a zero step, the first period's error once at
      least one period runs, and otherwise, when no period runs, the ValueError of `np.max`
      on the empty lists in `_print_backtest_summary`. */
  method RunBacktest(rows: seq<seq<real>>, tickers: seq<Ticker>, views: Option<seq<View>>,
                     windowSize: nat, frequency: nat,
                     solve: (seq<real>, seq<seq<real>>) -> seq<real>) returns (r: Result<Results>)
    requires windowSize >= 2 && Rectangular(rows, |tickers|) && OneWeightPerAsset(solve)
    ensures views.None? && |tickers| < 2 ==> r == Err(TooFewTickers)
    ensures ResolveViews(tickers, views).Ok? && frequency == 0 ==> r == Err(ZeroRebalanceFrequency)
    ensures ResolveViews(tickers, views).Ok? && frequency > 0 ==>
              var vs := ResolveViews(tickers, views).value;
              (r.Err? <==> |rows| <= windowSize || PeriodFails(tickers, vs))
              && (r.Err? ==> r.error == if windowSize < |rows| then PeriodError(tickers, vs) else NoPeriods)
    ensures r.Ok? ==> frequency > 0 && ResolveViews(tickers, views).Ok?
    ensures r.Ok? ==> |r.value.dates| == PeriodCount(windowSize, |rows|, frequency) > 0
    ensures r.Ok? ==> Recorded(rows, tickers, ResolveViews(tickers, views).value, windowSize, frequency, solve, r.value)
  {
    var resolved := ResolveViews(tickers, views);
    if resolved.Err? {
      return Err(resolved.error);
    }
    if frequency == 0 {
      return Err(ZeroRebalanceFrequency);
    }
    var periods := RunPeriods(rows, tickers, resolved.value, windowSize, frequency, solve);
    if periods.Err? {
      return Err(periods.error);
    }
    if |periods.value| == 0 {
      return Err(NoPeriods);
    }
    CollectRecorded(rows, tickers, resolved.value, windowSize, frequency, solve, periods.value);
    r := Ok(Collect(periods.value));
  }

  // ---------------------------------------------------------------------------
  // Information ratios of the backtest
  // ---------------------------------------------------------------------------

  /** The three figures reported per model. */
  datatype ActiveSummary = ActiveSummary(informationRatio: Metric, activeReturn: Metric, trackingError: Metric)

  /** `calculate_information_ratio` reports the two optimised models only. */
  datatype InformationReport = InformationReport(markowitz: ActiveSummary, blackLitterman: ActiveSummary)

  /** The per-model block of `calculate_information_ratio`: mean active return, its
      population standard deviation, and their ratio, reported as 0 for a zero deviation. */
  function Summarise(model: seq<real>, benchmark: seq<real>, sqrt: real -> real): (s: Result<ActiveSummary>)
    ensures s.Err? <==> |model| != |benchmark|
    ensures s.Err? ==> s.error == ShapeMismatch
    ensures s.Ok? ==> (s.value.activeReturn.NaN? <==> |model| == 0)
  {
    match RiskMetrics.ActiveReturns(model, benchmark)
    case Err(e) => Err(e)
    case Ok(active) =>
      Ok(ActiveSummary(RiskMetrics.ActiveRatio(active, sqrt), RiskMetrics.MeanOf(active),
                       RiskMetrics.StdDev(active, sqrt)))
  }

  /** For a non-empty run: every figure is finite; the ratio is zero exactly when the
      active returns do not vary or average zero, and otherwise has the sign of the mean
      active return. */
  lemma SummaryCases(model: seq<real>, benchmark: seq<real>, sqrt: real -> real)
    requires IsSqrt(sqrt) && |model| == |benchmark| > 0
    ensures var s := Summarise(model, benchmark, sqrt).value;
            s.informationRatio.Finite? && s.activeReturn.Finite? && s.trackingError.Finite?
            && s.trackingError.value >= 0.0
            && (s.informationRatio == Finite(0.0) <==> s.trackingError == Finite(0.0) || s.activeReturn == Finite(0.0))
            && (s.trackingError != Finite(0.0) ==> (s.informationRatio.value > 0.0 <==> s.activeReturn.value > 0.0))
  {
    var active := Difference(model, benchmark);
    RiskMetrics.ActiveRatioCases(active, sqrt);
    RiskMetrics.StdDevZero(active, sqrt);
  }

  /** A model measured against its own returns has no active return, no tracking error and
      an information ratio of zero. */
  lemma SummaryOfItself(model: seq<real>, sqrt: real -> real)
    requires IsSqrt(sqrt) && |model| > 0
    ensures Summarise(model, model, sqrt) == Ok(ActiveSummary(Finite(0.0), Finite(0.0), Finite(0.0)))
  {
    var active := Difference(model, model);
    SumConstant(|model|, 0.0);
    assert active == Constant(|model|, 0.0);
    RiskMetrics.InformationRatioOfItself(model, sqrt);
  }

  /** `calculate_information_ratio(benchmark_returns)`; the element-wise subtraction raises
      when a model's list and the benchmark differ in length. */
  function InformationRatios(results: Results, benchmark: seq<real>, sqrt: real -> real)
    : (r: Result<InformationReport>)
    ensures r.Err? <==> |results.markowitz| != |benchmark| || |results.blackLitterman| != |benchmark|
    ensures r.Ok? ==> Summarise(results.markowitz, benchmark, sqrt) == Ok(r.value.markowitz)
                      && Summarise(results.blackLitterman, benchmark, sqrt) == Ok(r.value.blackLitterman)
  {
    match Summarise(results.markowitz, benchmark, sqrt)
    case Err(e) => Err(e)
    case Ok(markowitz) =>
      match Summarise(results.blackLitterman, benchmark, sqrt)
      case Err(e) => Err(e)
      case Ok(blackLitterman) => Ok(InformationReport(markowitz, blackLitterman))
  }
}

=== FILE: black_litterman.dfy ===
/** The inputs `BlackLittermanOptimizer` assembles around its matrix algebra (black_litterman.py):
    equal market weights, market-implied returns, the view matrix P, the view vector Q, the
    diagonal uncertainty matrix Omega with its confidence defaults, the optimizer's starting
    point and bounds, and the risk figures of `get_portfolio_metrics`. */
module BlackLitterman {
  import opened Common
  import opened Numeric
  import opened Series
  import opened Drawdown
  import opened RiskMetrics

  /** The default risk aversion `lambda_risk`. */
  const RiskAversion: real := 2.5

  /** The confidence given to a view when none is stated. */
  const DefaultConfidence: real := 0.25

  /** `np.array([1 / n] * n)`: `1 / n` raises ZeroDivisionError before the list is built. */
  function EqualWeights(n: nat): (w: Result<seq<real>>)
    ensures w.Err? <==> n == 0
    ensures w.Err? ==> w.error == EmptyUniverse
    ensures w.Ok? ==> |w.value| == n && forall i :: 0 <= i < n ==> w.value[i] * (n as real) == 1.0
  {
    if n == 0 then Err(EmptyUniverse)
    else
      InverseTimes(n as real);
      Ok(Constant(n, 1.0 / (n as real)))
  }

  lemma InverseTimes(n: real)
    requires n > 0.0
    ensures 1.0 / n * n == 1.0
  {
  }

  /** Equal weights are fully invested: they sum to one. */
  lemma EqualWeightsSumToOne(n: nat)
    requires n > 0
    ensures EqualWeights(n).Ok? && Sum(EqualWeights(n).value) == 1.0
  {
    SumConstant(n, 1.0 / (n as real));
    InverseTimes(n as real);
  }

  // ---------------------------------------------------------------------------
  // Market-implied returns
  // ---------------------------------------------------------------------------

  /** `lambda * cov.dot(w)`; `dot` raises when the inner dimensions differ. */
  function ImpliedReturns(lambda: real, cov: seq<seq<real>>, w: seq<real>): (pi: Result<seq<real>>)
    ensures pi.Err? <==> !Rectangular(cov, |w|)
    ensures pi.Ok? ==> |pi.value| == |cov|
    ensures pi.Ok? ==> forall i :: 0 <= i < |cov| ==> pi.value[i] == lambda * Dot(cov[i], w)
  {
    if !Rectangular(cov, |w|) then Err(ShapeMismatch)
    else Ok(seq(|cov|, i requires 0 <= i < |cov| => lambda * Dot(cov[i], w)))
  }

  /** Implied returns are linear in the risk aversion. */
  lemma ImpliedReturnsLinear(a: real, b: real, cov: seq<seq<real>>, w: seq<real>)
    requires Rectangular(cov, |w|)
    ensures var pa := ImpliedReturns(a, cov, w).value;
            var pb := ImpliedReturns(b, cov, w).value;
            var pab := ImpliedReturns(a + b, cov, w).value;
            forall i :: 0 <= i < |cov| ==> pab[i] == pa[i] + pb[i]
  {
    forall i | 0 <= i < |cov| {
      Distribute(a, b, Dot(cov[i], w));
    }
  }

  /** Under equal market weights each implied return is the risk aversion times the
      average covariance of that asset with the whole universe. */
  lemma ImpliedReturnsEqualWeights(lambda: real, cov: seq<seq<real>>, n: nat)
    requires n > 0 && Rectangular(cov, n)
    ensures EqualWeights(n).Ok?
    ensures var pi := ImpliedReturns(lambda, cov, EqualWeights(n).value);
            pi.Ok? && forall i :: 0 <= i < |cov| ==> pi.value[i] == lambda * (Sum(cov[i]) / (n as real))
  {
    var w := EqualWeights(n).value;
    forall i | 0 <= i < |cov| ensures lambda * Dot(cov[i], w) == lambda * (Sum(cov[i]) / (n as real)) {
      DotConstant(cov[i], 1.0 / (n as real));
      TimesInverse(Sum(cov[i]), n as real);
    }
  }

  lemma TimesInverse(x: real, n: real)
    requires n > 0.0
    ensures 1.0 / n * x == x / n
  {
  }

  /** Three assets with covariance 0.04 I and the default risk aversion: every implied
      return is 2.5 * 0.04 / 3. */
  lemma ImpliedReturnsExample()
    ensures var cov := [[0.04, 0.0, 0.0], [0.0, 0.04, 0.0], [0.0, 0.0, 0.04]];
            var pi := ImpliedReturns(RiskAversion, cov, EqualWeights(3).value);
            pi.Ok? && pi.value == [0.1 / 3.0, 0.1 / 3.0, 0.1 / 3.0]
  {
    var cov := [[0.04, 0.0, 0.0], [0.0, 0.04, 0.0], [0.0, 0.0, 0.04]];
    ImpliedReturnsEqualWeights(RiskAversion, cov, 3);
    assert Sum(cov[0]) == 0.04 && Sum(cov[1]) == 0.04 && Sum(cov[2]) == 0.04;
  }

  // ---------------------------------------------------------------------------
  // Views: P, Q and Omega
  // ---------------------------------------------------------------------------

  /** The row with a single 1.0 at column `j`. */
  function UnitRow(n: nat, j: nat): (row: seq<real>)
    ensures |row| == n
    ensures forall k :: 0 <= k < n ==> row[k] == (if k == j then 1.0 else 0.0)
  {
    seq(n, k => if k == j then 1.0 else 0.0)
  }

  /** The view matrix P, one indicator row per view, and the view vector Q. */
  datatype ViewSystem = ViewSystem(p: seq<seq<real>>, q: seq<real>)

  /** The first view whose ticker is not in the universe. */
  function FirstUnknown(tickers: seq<Ticker>, views: seq<View>): (r: Option<Ticker>)
    ensures r.None? <==> forall i :: 0 <= i < |views| ==> views[i].ticker in tickers
    ensures r.Some? ==> r.value !in tickers
    ensures r.Some? ==> exists i :: 0 <= i < |views| && views[i].ticker == r.value
                                   && forall j :: 0 <= j < i ==> views[j].ticker in tickers
  {
    if |views| == 0 then None
    else if views[0].ticker !in tickers then Some(views[0].ticker)
    else
      var rest := FirstUnknown(tickers, views[1..]);
      assert rest.Some? ==> exists i :: 0 <= i < |views| && views[i].ticker == rest.value
                                        && forall j :: 0 <= j < i ==> views[j].ticker in tickers by {
        if rest.Some? {
          var k :| 0 <= k < |views[1..]| && views[1..][k].ticker == rest.value
                   && forall j :: 0 <= j < k ==> views[1..][j].ticker in tickers;
          assert views[k + 1].ticker == rest.value;
          forall j | 0 <= j < k + 1 ensures views[j].ticker in tickers {
            if j > 0 {
              assert views[j] == views[1..][j - 1];
            }
          }
        }
      }
      rest
  }

  /** The P and Q loop of `apply_black_litterman`: `ticker_list.index` raises for a ticker
      outside the universe. */
  function BuildViews(tickers: seq<Ticker>, views: seq<View>): (r: Result<ViewSystem>)
    ensures r.Err? <==> exists i :: 0 <= i < |views| && views[i].ticker !in tickers
    ensures r.Err? ==> r.error.UnknownTicker?
    ensures r.Ok? ==> |r.value.p| == |views| && |r.value.q| == |views|
                      && Rectangular(r.value.p, |tickers|)
    ensures r.Ok? ==> forall i :: 0 <= i < |views| ==> r.value.q[i] == views[i].value
  {
    match FirstUnknown(tickers, views)
    case Some(t) => Err(UnknownTicker(t))
    case None =>
      Ok(ViewSystem(
        seq(|views|, i requires 0 <= i < |views| => UnitRow(|tickers|, IndexOf(tickers, views[i].ticker).value)),
        seq(|views|, i requires 0 <= i < |views| => views[i].value)))
  }

  /** Row i of P is the indicator of the viewed ticker's position. */
  lemma ViewRows(tickers: seq<Ticker>, views: seq<View>, i: nat)
    requires BuildViews(tickers, views).Ok? && i < |views|
    ensures views[i].ticker in tickers
    ensures var row := BuildViews(tickers, views).value.p[i];
            forall k :: 0 <= k < |tickers| ==>
              (row[k] == 1.0 <==> (tickers[k] == views[i].ticker
                                   && forall j :: 0 <= j < k ==> tickers[j] != tickers[k]))
  {
  }

  /** A dot product with a unit row reads one coordinate (none when the 1.0 lies beyond
      the row). */
  lemma {:induction false} DotUnitRow(x: seq<real>, j: nat)
    ensures Dot(UnitRow(|x|, j), x) == if j < |x| then x[j] else 0.0
  {
    if |x| > 0 {
      var row := UnitRow(|x|, j);
      var j' := if j == 0 then |x| - 1 else j - 1;
      assert row[1..] == UnitRow(|x| - 1, j');
      DotUnitRow(x[1..], j');
      Indicator(row[0], x[0]);
    }
  }

  lemma Indicator(c: real, y: real)
    requires c == 0.0 || c == 1.0
    ensures c * y == (if c == 1.0 then y else 0.0)
  {
  }

  /** `P @ x` picks out, for every view, the entry of `x` at the viewed ticker. */
  lemma ViewMatrixSelects(tickers: seq<Ticker>, views: seq<View>, x: seq<real>)
    requires BuildViews(tickers, views).Ok? && |x| == |tickers|
    ensures var p := BuildViews(tickers, views).value.p;
            forall i :: 0 <= i < |views| ==> Dot(p[i], x) == x[IndexOf(tickers, views[i].ticker).value]
  {
    var p := BuildViews(tickers, views).value.p;
    forall i | 0 <= i < |views| ensures Dot(p[i], x) == x[IndexOf(tickers, views[i].ticker).value] {
      DotUnitRow(x, IndexOf(tickers, views[i].ticker).value);
    }
  }

  /** How confidence is supplied to `set_investor_views`: omitted, one number for every
      view, or a per-ticker dictionary. */
  datatype Confidence = Default | Uniform(level: real) | PerTicker(levels: map<Ticker, real>)

  function ViewTickers(views: seq<View>): set<Ticker>
  {
    set i | 0 <= i < |views| :: views[i].ticker
  }

  /** `set_investor_views`: the dictionary of confidence levels it returns. */
  function ResolveConfidence(views: seq<View>, confidence: Confidence): (levels: map<Ticker, real>)
    ensures confidence.PerTicker? ==> levels == confidence.levels
    ensures !confidence.PerTicker? ==> levels.Keys == ViewTickers(views)
    ensures confidence.Default? ==> forall t :: t in levels ==> levels[t] == DefaultConfidence
    ensures confidence.Uniform? ==> forall t :: t in levels ==> levels[t] == confidence.level
  {
    match confidence
    case Default => map t | t in ViewTickers(views) :: DefaultConfidence
    case Uniform(c) => map t | t in ViewTickers(views) :: c
    case PerTicker(m) => m
  }

  /** The first view whose confidence is missing or zero, as the Omega loop meets it. */
  function ConfidenceError(views: seq<View>, levels: map<Ticker, real>): (r: Option<Error>)
    ensures r.None? <==>
              forall i :: 0 <= i < |views| ==> (views[i].ticker in levels && levels[views[i].ticker] != 0.0)
    ensures r.Some? ==> r.value.MissingConfidence? || r.value.ZeroConfidence?
  {
    if |views| == 0 then None
    else if views[0].ticker !in levels then Some(MissingConfidence(views[0].ticker))
    else if levels[views[0].ticker] == 0.0 then Some(ZeroConfidence(views[0].ticker))
    else
      var rest := ConfidenceError(views[1..], levels);
      assert rest.None? ==>
               forall i :: 0 <= i < |views| ==> (views[i].ticker in levels && levels[views[i].ticker] != 0.0) by {
        if rest.None? {
          forall i | 1 <= i < |views| ensures views[i].ticker in levels && levels[views[i].ticker] != 0.0 {
            assert views[i] == views[1..][i - 1];
          }
        }
      }
      rest
  }

  /** The uncertainty `(1 - c) / c` of a view held with confidence `c`. */
  function Uncertainty(c: real): (u: real)
    requires c != 0.0
    ensures u * c == 1.0 - c
  {
    (1.0 - c) / c
  }

  /** The uncertainty of a view is positive exactly when its confidence lies strictly
      between 0 and 1, and zero exactly at full confidence. */
  lemma UncertaintySign(c: real)
    requires c != 0.0
    ensures Uncertainty(c) > 0.0 <==> 0.0 < c < 1.0
    ensures Uncertainty(c) == 0.0 <==> c == 1.0
  {
    var u := Uncertainty(c);
    if c > 0.0 {
      QuotientSign(1.0 - c, c);
    } else {
      QuotientSign(c - 1.0, -c);
      NegatedQuotientOf(1.0 - c, c);
    }
  }

  lemma NegatedQuotientOf(x: real, y: real)
    requires y < 0.0
    ensures x / y == -x / -y
  {
  }

  /** The Omega loop: a diagonal matrix with `(1 - c) / c` for each view, in view order;
      a missing key raises KeyError and a zero confidence ZeroDivisionError. */
  function BuildOmega(views: seq<View>, levels: map<Ticker, real>): (omega: Result<seq<seq<real>>>)
    ensures omega.Err? <==> exists i :: 0 <= i < |views| && (views[i].ticker !in levels
                                                             || levels[views[i].ticker] == 0.0)
    ensures omega.Ok? ==> |omega.value| == |views| && Rectangular(omega.value, |views|)
    ensures omega.Ok? ==> forall i, j :: 0 <= i < |views| && 0 <= j < |views| && i != j
                                         ==> omega.value[i][j] == 0.0
    ensures omega.Ok? ==> forall i :: 0 <= i < |views| ==>
                            var c := levels[views[i].ticker];
                            omega.value[i][i] * c == 1.0 - c
  {
    match ConfidenceError(views, levels)
    case Some(e) => Err(e)
    case None =>
      Ok(seq(|views|, i requires 0 <= i < |views| =>
        seq(|views|, j requires 0 <= j < |views| =>
          if i == j then Uncertainty(levels[views[i].ticker]) else 0.0)))
  }

  /** Omega's diagonal is positive exactly when every confidence lies in (0, 1). */
  lemma OmegaPositiveDiagonal(views: seq<View>, levels: map<Ticker, real>)
    requires BuildOmega(views, levels).Ok?
    ensures var omega := BuildOmega(views, levels).value;
            forall i :: 0 <= i < |views| ==>
              (omega[i][i] > 0.0 <==> 0.0 < levels[views[i].ticker] < 1.0)
  {
    var omega := BuildOmega(views, levels).value;
    forall i | 0 <= i < |views| ensures omega[i][i] > 0.0 <==> 0.0 < levels[views[i].ticker] < 1.0 {
      UncertaintySign(levels[views[i].ticker]);
    }
  }

  /** With no confidence given every view gets 0.25, so every diagonal entry of Omega is 3. */
  lemma DefaultOmega(views: seq<View>)
    ensures var omega := BuildOmega(views, ResolveConfidence(views, Default));
            omega.Ok? && forall i :: 0 <= i < |views| ==> omega.value[i][i] == 3.0
  {
    var levels := ResolveConfidence(views, Default);
    forall i | 0 <= i < |views| ensures views[i].ticker in levels {
      assert views[i].ticker in ViewTickers(views);
    }
  }

  /** Everything `apply_black_litterman` builds before its matrix inversions. */
  datatype Inputs = Inputs(implied: seq<real>, views: ViewSystem, omega: seq<seq<real>>)

  /** `apply_black_litterman` up to the posterior: implied returns, then the confidence
      levels, then P and Q, then Omega, failing at the first step that raises. */
  function BlackLittermanInputs(tickers: seq<Ticker>, cov: seq<seq<real>>, weights: seq<real>,
                                views: seq<View>, confidence: Confidence): (r: Result<Inputs>)
    ensures r.Ok? ==> |r.value.implied| == |cov| && |r.value.views.p| == |views|
                      && |r.value.omega| == |views|
    ensures r.Ok? ==> forall i :: 0 <= i < |views| ==> views[i].ticker in tickers
    ensures confidence.Default? && Rectangular(cov, |weights|) ==>
              (r.Ok? <==> forall i :: 0 <= i < |views| ==> views[i].ticker in tickers)
    ensures var levels := ResolveConfidence(views, confidence);
            r.Err? <==> !Rectangular(cov, |weights|)
                        || (exists i :: 0 <= i < |views| && views[i].ticker !in tickers)
                        || (exists i :: 0 <= i < |views| && (views[i].ticker !in levels
                                                             || levels[views[i].ticker] == 0.0))
    ensures r.Err? ==> r.error == if !Rectangular(cov, |weights|) then ShapeMismatch
                                  else if FirstUnknown(tickers, views).Some? then UnknownTicker(FirstUnknown(tickers, views).value)
                                  else ConfidenceError(views, ResolveConfidence(views, confidence)).value
    ensures r.Ok? ==> r.value.implied == ImpliedReturns(RiskAversion, cov, weights).value
                      && r.value.views == BuildViews(tickers, views).value
                      && r.value.omega == BuildOmega(views, ResolveConfidence(views, confidence)).value
  {
    match ImpliedReturns(RiskAversion, cov, weights)
    case Err(e) => Err(e)
    case Ok(pi) =>
      var levels := ResolveConfidence(views, confidence);
      match BuildViews(tickers, views)
      case Err(e) => Err(e)
      case Ok(system) =>
        DefaultOmega(views);
        match BuildOmega(views, levels)
        case Err(e) => Err(e)
        case Ok(omega) => Ok(Inputs(pi, system, omega))
  }

  // ---------------------------------------------------------------------------
  // Optimizer set-up
  // ---------------------------------------------------------------------------

  /** The starting point and box bounds `optimize_portfolio` hands to SLSQP. */
  datatype Setup = Setup(x0: seq<real>, bounds: seq<(real, real)>)

  /** `optimize_portfolio`'s set-up for `n` assets. */
  function OptimizerSetup(n: nat, minWeight: real, maxWeight: real): (s: Result<Setup>)
    ensures s.Err? <==> n == 0
    ensures s.Ok? ==> |s.value.x0| == n && |s.value.bounds| == n
    ensures s.Ok? ==> forall i :: 0 <= i < n ==> s.value.bounds[i] == (minWeight, maxWeight)
  {
    match EqualWeights(n)
    case Err(e) => Err(e)
    case Ok(x0) => Ok(Setup(x0, seq(n, _ => (minWeight, maxWeight))))
  }

  /** The starting point satisfies the budget constraint `sum(w) - 1 == 0`, and lies inside
      the bounds whenever they admit the equal weight. */
  lemma OptimizerStartFeasible(n: nat, minWeight: real, maxWeight: real)
    requires n > 0
    ensures var s := OptimizerSetup(n, minWeight, maxWeight);
            s.Ok? && Sum(s.value.x0) - 1.0 == 0.0
    ensures var s := OptimizerSetup(n, minWeight, maxWeight);
            minWeight * (n as real) <= 1.0 <= maxWeight * (n as real) ==>
              forall i :: 0 <= i < n ==> s.value.bounds[i].0 <= s.value.x0[i] <= s.value.bounds[i].1
  {
    EqualWeightsSumToOne(n);
    var w := 1.0 / (n as real);
    InverseTimes(n as real);
    if minWeight * (n as real) <= 1.0 <= maxWeight * (n as real) {
      WithinBounds(minWeight, maxWeight, n as real, w);
    }
  }

  lemma WithinBounds(lo: real, hi: real, n: real, w: real)
    requires n > 0.0 && w * n == 1.0 && lo * n <= 1.0 <= hi * n
    ensures lo <= w <= hi
  {
    if lo > w {
      MulPositive(lo - w, n);
    }
    if w > hi {
      MulPositive(w - hi, n);
    }
  }

  // ---------------------------------------------------------------------------
  // get_portfolio_metrics
  // ---------------------------------------------------------------------------

  /** What the model relies on about `np.percentile`: on a non-empty array it is at least
      the smallest element. */
  ghost predicate IsPercentile(percentile: (seq<real>, real) -> real)
  {
    forall s, q :: |s| > 0 ==> Minimum(s) <= percentile(s, q)
  }

  /** The dictionary `get_portfolio_metrics` returns. */
  datatype PortfolioReport = PortfolioReport(
    expectedReturn: real,
    volatility: real,
    sharpe: Metric,
    valueAtRisk: real,
    conditionalValueAtRisk: Metric,
    maxDrawdown: Metric)

  /** The portfolio's daily returns, `returns @ weights`. */
  function DailyReturns(rows: seq<seq<real>>, weights: seq<real>): (d: seq<real>)
    requires Rectangular(rows, |weights|)
    ensures |d| == |rows|
    ensures forall t :: 0 <= t < |rows| ==> d[t] == Dot(rows[t], weights)
  {
    MatVec(rows, weights)
  }

  /** `get_portfolio_metrics(weights, expected)` over daily asset returns `rows`. */
  function PortfolioMetrics(weights: seq<real>, expected: seq<real>, cov: seq<seq<real>>,
                            rows: seq<seq<real>>, riskFree: real, sqrt: real -> real,
                            percentile: (seq<real>, real) -> real): (r: Result<PortfolioReport>)
    ensures r.Err? <==> |weights| != |expected| || |cov| != |weights| || !Rectangular(cov, |weights|)
                        || !Rectangular(rows, |weights|) || |rows| == 0
  {
    if |weights| != |expected| || |cov| != |weights| || !Rectangular(cov, |weights|) then Err(ShapeMismatch)
    else if !Rectangular(rows, |weights|) then Err(ShapeMismatch)
    else if |rows| == 0 then Err(EmptyInput)
    else
      var ret := Dot(weights, expected);
      var vol := sqrt(Dot(weights, MatVec(cov, weights)));
      var daily := DailyReturns(rows, weights);
      var var95 := percentile(daily, 5.0);
      Ok(PortfolioReport(ret, vol, Quotient(ret - riskFree, vol), var95, TailMean(daily, var95),
                         WorstDrawdown(daily)))
  }

  /** The CVaR is a mean of daily returns at or below the 5th percentile, so it exists and
      lies at or below that percentile; when every daily portfolio return exceeds -1 the
      maximum drawdown is finite and in (-1, 0]. */
  lemma PortfolioMetricsBounds(weights: seq<real>, expected: seq<real>, cov: seq<seq<real>>,
                               rows: seq<seq<real>>, riskFree: real, sqrt: real -> real,
                               percentile: (seq<real>, real) -> real)
    requires IsPercentile(percentile)
    requires PortfolioMetrics(weights, expected, cov, rows, riskFree, sqrt, percentile).Ok?
    ensures var m := PortfolioMetrics(weights, expected, cov, rows, riskFree, sqrt, percentile).value;
            m.conditionalValueAtRisk.Finite? && m.conditionalValueAtRisk.value <= m.valueAtRisk
    ensures var m := PortfolioMetrics(weights, expected, cov, rows, riskFree, sqrt, percentile).value;
            AboveMinusOne(DailyReturns(rows, weights)) ==>
              m.maxDrawdown.Finite? && -1.0 < m.maxDrawdown.value <= 0.0
  {
    var daily := DailyReturns(rows, weights);
    var var95 := percentile(daily, 5.0);
    assert Minimum(daily) <= var95;
    if AboveMinusOne(daily) {
      WorstDrawdownBounds(daily);
    }
  }
}

=== FILE: common.dfy ===
/** Shared vocabulary: optional values, the error outcomes the Python code raises,
    investor views and the ticker-to-position lookup used to place them. */
module Common {

  datatype Option<T> = None | Some(value: T)

  /** The exceptions the modelled code can raise, one case per cause. */
  datatype Error =
    | EmptyInput                        // np.min / iloc[-1] / np.percentile on an empty series
    | ShapeMismatch                     // element-wise arithmetic on series of different lengths
    | EmptyUniverse                     // 1 / len(ticker_list) with no tickers (ZeroDivisionError)
    | TooFewTickers                     // default views read ticker_list[1] (IndexError)
    | UnknownTicker(ticker: string)     // ticker_list.index(ticker) (ValueError)
    | MissingConfidence(ticker: string) // conf_levels[ticker] (KeyError)
    | ZeroConfidence(ticker: string)    // (1 - conf) / conf with conf == 0 (ZeroDivisionError)
    | ZeroRebalanceFrequency            // range(...) with step 0 (ValueError)
    | NoPeriods                         // np.max of a backtest list with no periods (ValueError)

  datatype Result<T> = Ok(value: T) | Err(error: Error)

  type Ticker = string

  /** One entry of a Python views dictionary: an expected annual return for one ticker.
      A dictionary is modelled by the sequence of its entries in insertion order. */
  datatype View = View(ticker: Ticker, value: real)

  /** Dictionary keys are unique. */
  predicate DistinctTickers(views: seq<View>)
  {
    forall i, j :: 0 <= i < j < |views| ==> views[i].ticker != views[j].ticker
  }

  /** `list.index`: the position of the first occurrence of `t`, or None where Python
      raises ValueError. */
  function IndexOf(tickers: seq<Ticker>, t: Ticker): (r: Option<nat>)
    ensures r.None? <==> t !in tickers
    ensures r.Some? ==> r.value < |tickers| && tickers[r.value] == t
    ensures r.Some? ==> forall j :: 0 <= j < r.value ==> tickers[j] != t
  {
    if |tickers| == 0 then None
    else if tickers[0] == t then Some(0)
    else
      match IndexOf(tickers[1..], t)
      case None => None
      case Some(i) => Some(i + 1)
  }
}

=== FILE: drawdown.dfy ===
/** Maximum drawdown of a return series: the growth of one unit of wealth, its running
    peak, and the worst relative fall below that peak (`maximum_drawdown` in
    advanced_metrics.py and the drawdown block of `get_portfolio_metrics`). */
module Drawdown {
  import opened Common
  import opened Numeric

  /** Every return loses less than the whole position. */
  predicate AboveMinusOne(r: seq<real>)
  {
    forall i :: 0 <= i < |r| ==> r[i] > -1.0
  }

  /** No day after the first loses money. The first day's return never counts as a
      drawdown: the running peak starts at the first cumulative value, not at 1. */
  predicate NoLossAfterFirst(r: seq<real>)
  {
    forall i :: 1 <= i < |r| ==> r[i] >= 0.0
  }

  /** `(1 + r).cumprod()[-1]`: the value of one unit invested over the whole series. */
  function Wealth(r: seq<real>): real
  {
    if |r| == 0 then 1.0 else Wealth(r[..|r| - 1]) * (1.0 + r[|r| - 1])
  }

  /** `np.maximum.accumulate(cumulative)[-1]`: the highest wealth reached so far, that is
      the wealth of some non-empty prefix and at least the wealth of every one. */
  function Peak(r: seq<real>): (p: real)
    requires |r| > 0
    ensures p >= Wealth(r)
    ensures forall k :: 0 < k <= |r| ==> p >= Wealth(r[..k])
    ensures exists k :: 0 < k <= |r| && p == Wealth(r[..k])
  {
    assert r[..|r|] == r;
    if |r| == 1 then Wealth(r)
    else
      var prefix := r[..|r| - 1];
      assert forall k :: 0 < k < |r| ==> prefix[..k] == r[..k];
      var before := Peak(prefix);
      if before >= Wealth(r) then before else Wealth(r)
  }

  /** The drawdown on the last day of `r`: `(cumulative - running_max) / running_max`. */
  function DrawdownAt(r: seq<real>): Metric
    requires |r| > 0
  {
    Quotient(Wealth(r) - Peak(r), Peak(r))
  }

  /** `np.min(drawdown)` over the drawdowns of every non-empty prefix. */
  function WorstDrawdown(r: seq<real>): Metric
    requires |r| > 0
  {
    if |r| == 1 then DrawdownAt(r)
    else Min(WorstDrawdown(r[..|r| - 1]), DrawdownAt(r))
  }

  /** `maximum_drawdown(returns)`; `np.min` of an empty array raises. */
  function MaximumDrawdown(r: seq<real>): (m: Result<Metric>)
    ensures m.Err? <==> |r| == 0
    ensures m.Err? ==> m.error == EmptyInput
  {
    if |r| == 0 then Err(EmptyInput) else Ok(WorstDrawdown(r))
  }

  // ---------------------------------------------------------------------------
  // Lemmas
  // ---------------------------------------------------------------------------

  lemma GrowthPositive(w: real, x: real)
    requires w > 0.0 && x > -1.0
    ensures w * (1.0 + x) > 0.0
  {
    MulPositive(w, 1.0 + x);
  }

  lemma WealthStep(w: real, x: real)
    requires w > 0.0 && x > -1.0
    ensures w * (1.0 + x) > 0.0
    ensures w * (1.0 + x) >= w <==> x >= 0.0
  {
    GrowthPositive(w, x);
    if x < 0.0 {
      MulPositive(w, -x);
    } else if x > 0.0 {
      MulPositive(w, x);
    }
  }

  lemma WealthLast(r: seq<real>)
    requires |r| > 0
    ensures Wealth(r) == Wealth(r[..|r| - 1]) * (1.0 + r[|r| - 1])
  {
  }

  /** Wealth stays positive while no return wipes the position out. */
  lemma {:induction false} WealthPositive(r: seq<real>)
    requires AboveMinusOne(r)
    ensures Wealth(r) > 0.0
  {
    if |r| > 0 {
      AboveMinusOnePrefix(r, |r| - 1);
      WealthPositive(r[..|r| - 1]);
      MulPositive(Wealth(r[..|r| - 1]), 1.0 + r[|r| - 1]);
    }
  }

  /** Dropping the last day keeps a property of every day. */
  lemma AboveMinusOnePrefix(r: seq<real>, k: nat)
    requires k <= |r| && AboveMinusOne(r)
    ensures AboveMinusOne(r[..k])
  {
    forall i | 0 <= i < k ensures r[..k][i] > -1.0 {
      assert r[..k][i] == r[i];
    }
  }

  /** With no losing day after the first, wealth never falls, so it is its own running peak. */
  lemma {:induction false} PeakOfGains(r: seq<real>)
    requires |r| > 0 && AboveMinusOne(r) && NoLossAfterFirst(r)
    ensures Peak(r) == Wealth(r)
  {
    if |r| > 1 {
      var before := r[..|r| - 1];
      assert NoLossAfterFirst(before) by {
        forall i | 1 <= i < |before| ensures before[i] >= 0.0 {
          assert before[i] == r[i];
        }
      }
      AboveMinusOnePrefix(r, |r| - 1);
      PeakOfGains(before);
      WealthPositive(before);
      WealthStep(Wealth(before), r[|r| - 1]);
      WealthLast(r);
    }
  }

  /** The drawdown at one day, given the wealth is positive and at most its peak. */
  lemma DrawdownStep(w: real, p: real)
    requires 0.0 < w <= p
    ensures Quotient(w - p, p).Finite?
    ensures -1.0 < Quotient(w - p, p).value <= 0.0
    ensures Quotient(w - p, p).value == 0.0 <==> w == p
  {
    var q := (w - p) / p;
    FallBounds(w, p);
    assert Quotient(w - p, p) == Finite(q);
  }

  lemma FallBounds(w: real, p: real)
    requires 0.0 < w <= p
    ensures -1.0 < (w - p) / p <= 0.0
    ensures (w - p) / p == 0.0 <==> w == p
  {
    QuotientSign(w - p, p);
    FallAboveMinusOne(w, p);
  }

  lemma FallAboveMinusOne(w: real, p: real)
    requires 0.0 < w <= p
    ensures -1.0 < (w - p) / p
  {
  }

  /** Drawdowns of a series whose returns all exceed -1 are finite and in (-1, 0]. */
  lemma {:induction false} WorstDrawdownBounds(r: seq<real>)
    requires |r| > 0 && AboveMinusOne(r)
    ensures WorstDrawdown(r).Finite?
    ensures -1.0 < WorstDrawdown(r).value <= 0.0
  {
    WealthPositive(r);
    DrawdownStep(Wealth(r), Peak(r));
    if |r| > 1 {
      AboveMinusOnePrefix(r, |r| - 1);
      WorstDrawdownBounds(r[..|r| - 1]);
    }
  }

  /** The worst drawdown is no larger than the drawdown on any day. */
  lemma {:induction false} WorstDrawdownBelowEveryDay(r: seq<real>, k: nat)
    requires 0 < k <= |r| && AboveMinusOne(r)
    ensures WorstDrawdown(r).Finite? && DrawdownAt(r[..k]).Finite?
    ensures WorstDrawdown(r).value <= DrawdownAt(r[..k]).value
  {
    WorstDrawdownBounds(r);
    WealthPositive(r);
    DrawdownStep(Wealth(r), Peak(r));
    if |r| > 1 {
      var before := r[..|r| - 1];
      AboveMinusOnePrefix(r, |r| - 1);
      WorstDrawdownBounds(before);
      if k < |r| {
        assert r[..k] == before[..k];
        WorstDrawdownBelowEveryDay(before, k);
      } else {
        assert r[..k] == r;
      }
    } else {
      assert r[..k] == r;
    }
  }

  /** `np.min(drawdown)` is attained: the maximum drawdown is the drawdown of some day. */
  lemma {:induction false} WorstDrawdownAttained(r: seq<real>)
    requires |r| > 0
    ensures exists k :: 0 < k <= |r| && WorstDrawdown(r) == DrawdownAt(r[..k])
  {
    assert r[..|r|] == r;
    if |r| > 1 {
      var before := r[..|r| - 1];
      WorstDrawdownAttained(before);
      var k :| 0 < k <= |before| && WorstDrawdown(before) == DrawdownAt(before[..k]);
      assert before[..k] == r[..k];
    }
  }

  /** A losing day after the first ends below the running peak. */
  lemma LossIsDrawdown(r: seq<real>, k: nat)
    requires 1 <= k < |r| && AboveMinusOne(r) && r[k] < 0.0
    ensures DrawdownAt(r[..k + 1]).Finite? && DrawdownAt(r[..k + 1]).value < 0.0
  {
    var upto := r[..k + 1];
    AboveMinusOnePrefix(r, k + 1);
    LastLossBelowPeak(upto);
    WealthPositive(upto);
    DrawdownStep(Wealth(upto), Peak(upto));
  }

  /** A losing last day, after at least one earlier day, ends strictly below the peak. */
  lemma LastLossBelowPeak(r: seq<real>)
    requires |r| > 1 && AboveMinusOne(r) && r[|r| - 1] < 0.0
    ensures Wealth(r) < Peak(r)
  {
    var before := r[..|r| - 1];
    AboveMinusOnePrefix(r, |r| - 1);
    WealthPositive(before);
    WealthStep(Wealth(before), r[|r| - 1]);
    WealthLast(r);
    assert Wealth(r) < Wealth(before) <= Peak(before);
    PeakGrows(r);
  }

  /** The running peak never falls. */
  lemma PeakGrows(r: seq<real>)
    requires |r| > 1
    ensures Peak(r[..|r| - 1]) <= Peak(r)
  {
  }

  /** Once no day after the first loses money, every drawdown is exactly zero. */
  lemma {:induction false} NoLossNoDrawdown(r: seq<real>)
    requires |r| > 0 && AboveMinusOne(r) && NoLossAfterFirst(r)
    ensures WorstDrawdown(r) == Finite(0.0)
  {
    PeakOfGains(r);
    WealthPositive(r);
    DrawdownStep(Wealth(r), Peak(r));
    if |r| > 1 {
      var before := r[..|r| - 1];
      assert NoLossAfterFirst(before) by {
        forall i | 1 <= i < |before| ensures before[i] >= 0.0 {
          assert before[i] == r[i];
        }
      }
      AboveMinusOnePrefix(r, |r| - 1);
      NoLossNoDrawdown(before);
    }
  }

  /** The maximum drawdown of a series whose returns exceed -1 is zero exactly when no day
      after the first loses money; otherwise it is strictly negative. */
  lemma NoDrawdownIff(r: seq<real>)
    requires |r| > 0 && AboveMinusOne(r)
    ensures WorstDrawdown(r) == Finite(0.0) <==> NoLossAfterFirst(r)
  {
    if NoLossAfterFirst(r) {
      NoLossNoDrawdown(r);
    } else {
      var k :| 1 <= k < |r| && r[k] < 0.0;
      LossIsDrawdown(r, k);
      WorstDrawdownBelowEveryDay(r, k + 1);
    }
  }

  /** A series with no losing day has a maximum drawdown of zero. */
  lemma GainsOnlyNoDrawdown(r: seq<real>)
    requires |r| > 0 && forall i :: 0 <= i < |r| ==> r[i] >= 0.0
    ensures MaximumDrawdown(r) == Ok(Finite(0.0))
  {
    NoLossNoDrawdown(r);
  }

  /** A series whose returns all exceed -1 has a finite maximum drawdown in (-1, 0]. */
  lemma MaximumDrawdownBounds(r: seq<real>)
    requires |r| > 0 && AboveMinusOne(r)
    ensures MaximumDrawdown(r).Ok? && MaximumDrawdown(r).value.Finite?
    ensures -1.0 < MaximumDrawdown(r).value.value <= 0.0
  {
    WorstDrawdownBounds(r);
  }
}

=== FILE: numeric.dfy ===
/** Double-precision outcomes without rounding: numpy arithmetic on float64 yields a real,
    an infinity or NaN (with a runtime warning) instead of raising. Signed zeros are not
    distinguished. */
module Numeric {

  datatype Metric = Finite(value: real) | PosInf | NegInf | NaN
  {
    predicate IsInfinite() { PosInf? || NegInf? }
    predicate IsPositive() { (Finite? && value > 0.0) || PosInf? }
    predicate IsNegative() { (Finite? && value < 0.0) || NegInf? }
  }

  function Neg(a: Metric): (r: Metric)
    ensures r.IsPositive() <==> a.IsNegative()
    ensures r.IsNegative() <==> a.IsPositive()
    ensures r.Finite? <==> a.Finite?
    ensures a.Finite? ==> r.value == -a.value
    ensures r.NaN? <==> a.NaN?
    ensures r == PosInf <==> a == NegInf
    ensures r == NegInf <==> a == PosInf
  {
    match a
    case Finite(x) => Finite(-x)
    case PosInf => NegInf
    case NegInf => PosInf
    case NaN => NaN
  }

  /** IEEE-754 division `a / b` as numpy performs it on float64 values. */
  function Div(a: Metric, b: Metric): (r: Metric)
    ensures a.Finite? && b.Finite? && b.value != 0.0 ==> r == Finite(a.value / b.value)
    ensures r.NaN? <==> a.NaN? || b.NaN? || (a == Finite(0.0) && b == Finite(0.0))
                        || (a.IsInfinite() && b.IsInfinite())
    ensures b == Finite(0.0) ==> (r == PosInf <==> a.IsPositive()) && (r == NegInf <==> a.IsNegative())
  {
    match (a, b)
    case (NaN, _) => NaN
    case (_, NaN) => NaN
    case (Finite(x), Finite(y)) =>
      if y != 0.0 then Finite(x / y)
      else if x > 0.0 then PosInf
      else if x < 0.0 then NegInf
      else NaN
    case (Finite(_), _) => Finite(0.0)
    case (PosInf, Finite(y)) => if y < 0.0 then NegInf else PosInf
    case (NegInf, Finite(y)) => if y < 0.0 then PosInf else NegInf
    case (_, _) => NaN
  }

  /** The float64 quotient of two reals. */
  function Quotient(x: real, y: real): (r: Metric)
    ensures y != 0.0 ==> r == Finite(x / y)
    ensures y == 0.0 ==> !r.Finite?
  {
    Div(Finite(x), Finite(y))
  }

  /** The smaller of two values as `np.min` sees it: NaN wins over everything. */
  function Min(a: Metric, b: Metric): (r: Metric)
    ensures r == a || r == b
    ensures r.NaN? <==> a.NaN? || b.NaN?
    ensures a.Finite? && b.Finite? ==> r.Finite? && r.value <= a.value && r.value <= b.value
                                       && (r.value == a.value || r.value == b.value)
  {
    match (a, b)
    case (NaN, _) => NaN
    case (_, NaN) => NaN
    case (NegInf, _) => NegInf
    case (_, NegInf) => NegInf
    case (PosInf, _) => b
    case (_, PosInf) => a
    case (Finite(x), Finite(y)) => if x <= y then a else b
  }

  /** IEEE-754 multiplication `a * k` by a finite factor. */
  function Times(a: Metric, k: real): (r: Metric)
    ensures a.Finite? ==> r == Finite(a.value * k)
    ensures r.NaN? <==> a.NaN? || (!a.Finite? && k == 0.0)
    ensures !a.Finite? && k > 0.0 ==> r == a
  {
    if a.Finite? then Finite(a.value * k)
    else if a.NaN? || k == 0.0 then NaN
    else if (k > 0.0) == a.PosInf? then PosInf
    else NegInf
  }

  /** IEEE-754 `m + z * s` for finite `m` and `s`: finite exactly when `z` is, NaN when `z`
      is NaN or an infinity meets a zero factor, and otherwise an infinity, which a positive
      factor leaves as it is and a negative one negates. */
  function Affine(m: real, z: Metric, s: real): (r: Metric)
    ensures r.Finite? <==> z.Finite?
    ensures z.Finite? ==> r.value == m + z.value * s
    ensures r.NaN? <==> z.NaN? || (z.IsInfinite() && s == 0.0)
    ensures z.IsInfinite() && s > 0.0 ==> r == z
    ensures z.IsInfinite() && s < 0.0 ==> r == Neg(z)
  {
    var t := Times(z, s);
    if t.Finite? then Finite(m + t.value) else t
  }

  /** Scaling by a positive factor keeps the sign of a value. */
  lemma TimesSign(a: Metric, k: real)
    requires k > 0.0
    ensures Times(a, k).IsPositive() <==> a.IsPositive()
    ensures Times(a, k).IsNegative() <==> a.IsNegative()
  {
    if a.Finite? {
      ProductSign(a.value, k);
    }
  }

  /** Multiplying by a positive factor keeps the sign. */
  lemma ProductSign(x: real, k: real)
    ensures k > 0.0 ==> (x * k > 0.0 <==> x > 0.0) && (x * k < 0.0 <==> x < 0.0)
  {
    if k > 0.0 {
      if x > 0.0 { MulPositive(x, k); }
      if x < 0.0 { MulPositive(-x, k); }
    }
  }

  lemma MulPositive(a: real, b: real)
    requires a > 0.0 && b > 0.0
    ensures a * b > 0.0
  {
  }

  /** Dividing by a positive divisor keeps the sign. */
  lemma QuotientSign(x: real, y: real)
    requires y > 0.0
    ensures x / y > 0.0 <==> x > 0.0
    ensures x / y < 0.0 <==> x < 0.0
    ensures x / y == 0.0 <==> x == 0.0
  {
  }

  /** What the model relies on about the library square root: it is non-negative on
      non-negative arguments and vanishes exactly at zero. */
  ghost predicate IsSqrt(sqrt: real -> real)
  {
    forall x :: 0.0 <= x ==> 0.0 <= sqrt(x) && (sqrt(x) == 0.0 <==> x == 0.0)
  }
}

=== FILE: risk_metrics.dfy ===
/** The risk and performance ratios of `RiskMetricsCalculator` (advanced_metrics.py):
    Sortino, Calmar, recovery factor, information ratio, tracking error, beta, alpha,
    value at risk and its conditional tail mean, profit factor, win rate, payoff ratio
    and the key selection of `comprehensive_analysis`.

    Returns are exact reals; the float64 outcomes of a division (infinities, NaN) are
    `Metric` values. The library square root, power and normal quantile are parameters. */
module RiskMetrics {
  import opened Common
  import opened Numeric
  import opened Series
  import opened Drawdown

  /** Trading days per year, the annualisation factor used throughout. */
  const TradingDays: real := 252.0

  /** `np.mean`: NaN for an empty series. */
  function MeanOf(s: seq<real>): (r: Metric)
    ensures r.NaN? <==> |s| == 0
    ensures |s| > 0 ==> r == Finite(Mean(s))
  {
    if |s| == 0 then NaN else Finite(Mean(s))
  }

  /** `np.std` (ddof = 0): NaN for an empty series. */
  function StdDev(s: seq<real>, sqrt: real -> real): (r: Metric)
    ensures r.NaN? <==> |s| == 0
    ensures |s| > 0 ==> r == Finite(sqrt(Variance(s)))
  {
    if |s| == 0 then NaN else Finite(sqrt(Variance(s)))
  }

  /** A standard deviation is zero exactly when the variance is. */
  lemma StdDevZero(s: seq<real>, sqrt: real -> real)
    requires IsSqrt(sqrt) && |s| > 0
    ensures StdDev(s, sqrt).Finite? && StdDev(s, sqrt).value >= 0.0
    ensures StdDev(s, sqrt) == Finite(0.0) <==> Variance(s) == 0.0
  {
    VarianceFacts(s);
  }

  // ---------------------------------------------------------------------------
  // Sortino ratio
  // ---------------------------------------------------------------------------

  /** The target return: the given one, else the daily or annual risk-free rate. */
  function SortinoTarget(target: Option<real>, daily: bool, riskFree: real): (t: real)
    ensures target.Some? ==> t == target.value
    ensures target.None? && !daily ==> t == riskFree
    ensures target.None? && daily ==> t * TradingDays == riskFree
  {
    match target
    case Some(t) => t
    case None => if daily then riskFree / TradingDays else riskFree
  }

  /** `excess_returns[excess_returns < 0]`. */
  function Downside(rets: seq<real>, t: real): (d: seq<real>)
    ensures |d| <= |rets|
    ensures |d| == 0 <==> forall i :: 0 <= i < |rets| ==> rets[i] >= t
  {
    var excess := Shift(rets, t);
    var d := Below(excess, 0.0);
    assert |d| == 0 <==> forall i :: 0 <= i < |rets| ==> rets[i] >= t by {
      forall i | 0 <= i < |rets| ensures excess[i] >= 0.0 <==> rets[i] >= t {
      }
    }
    d
  }

  /** `sortino_ratio(returns, target_return, daily)`. */
  function Sortino(rets: seq<real>, target: Option<real>, daily: bool, riskFree: real,
                   sqrt: real -> real): (r: Metric)
    ensures (forall i :: 0 <= i < |rets| ==> rets[i] >= SortinoTarget(target, daily, riskFree))
            ==> r == PosInf
  {
    var t := SortinoTarget(target, daily, riskFree);
    var excess := Shift(rets, t);
    var downside := Downside(rets, t);
    if |downside| == 0 then PosInf
    else
      var ratio := Div(Finite(Mean(excess)), Finite(sqrt(Variance(downside))));
      if daily then Times(ratio, sqrt(TradingDays)) else ratio
  }

  /** Sortino is +inf exactly when no return falls below the target, or when the shortfalls
      are all equal (zero downside deviation) while the mean excess return is positive. */
  lemma SortinoInfinite(rets: seq<real>, target: Option<real>, daily: bool, riskFree: real,
                        sqrt: real -> real)
    requires IsSqrt(sqrt)
    ensures var t := SortinoTarget(target, daily, riskFree);
            var d := Downside(rets, t);
            Sortino(rets, target, daily, riskFree, sqrt) == PosInf
            <==> |d| == 0 || (Variance(d) == 0.0 && Mean(Shift(rets, t)) > 0.0)
  {
    var t := SortinoTarget(target, daily, riskFree);
    var d := Downside(rets, t);
    if |d| > 0 {
      VarianceFacts(d);
      var ratio := Div(Finite(Mean(Shift(rets, t))), Finite(sqrt(Variance(d))));
      assert sqrt(TradingDays) > 0.0;
      TimesSign(ratio, sqrt(TradingDays));
      if Variance(d) > 0.0 {
        assert ratio.Finite?;
      }
    }
  }

  /** With a positive downside deviation Sortino is finite and has the sign of the mean
      excess return. */
  lemma SortinoSign(rets: seq<real>, target: Option<real>, daily: bool, riskFree: real,
                    sqrt: real -> real)
    requires IsSqrt(sqrt)
    requires var d := Downside(rets, SortinoTarget(target, daily, riskFree));
             |d| > 0 && Variance(d) > 0.0
    ensures var t := SortinoTarget(target, daily, riskFree);
            var r := Sortino(rets, target, daily, riskFree, sqrt);
            r.Finite? && (r.value > 0.0 <==> Mean(Shift(rets, t)) > 0.0)
                      && (r.value < 0.0 <==> Mean(Shift(rets, t)) < 0.0)
  {
    var t := SortinoTarget(target, daily, riskFree);
    var d := Downside(rets, t);
    var m := Mean(Shift(rets, t));
    var s := sqrt(Variance(d));
    assert s > 0.0;
    QuotientSign(m, s);
    var ratio := Div(Finite(m), Finite(s));
    assert ratio == Finite(m / s);
    assert sqrt(TradingDays) > 0.0;
    TimesSign(ratio, sqrt(TradingDays));
  }

  // ---------------------------------------------------------------------------
  // CAGR, recovery factor, Calmar ratio
  // ---------------------------------------------------------------------------

  /** `cagr(returns)`: `cumulative.iloc[-1] ** (1 / years) - 1` with `years = n / 252`;
      `iloc[-1]` of an empty series raises. */
  function Cagr(rets: seq<real>, pow: (real, real) -> real): (r: Result<real>)
    ensures r.Err? <==> |rets| == 0
    ensures r.Ok? ==> r.value + 1.0 == pow(Wealth(rets), 1.0 / ((|rets| as real) / TradingDays))
  {
    if |rets| == 0 then Err(EmptyInput)
    else Ok(pow(Wealth(rets), 1.0 / ((|rets| as real) / TradingDays)) - 1.0)
  }

  /** What the model relies on about `**` for a positive base and a positive exponent: the
      power is positive, and it is above one, one, or below one exactly as the base is. */
  ghost predicate IsPower(pow: (real, real) -> real)
  {
    forall x, y :: 0.0 < x && 0.0 < y ==>
      0.0 < pow(x, y) && (pow(x, y) > 1.0 <==> x > 1.0) && (pow(x, y) == 1.0 <==> x == 1.0)
  }

  /** While every return exceeds -1 the CAGR exceeds -1, and it is positive, zero or
      negative exactly as final wealth is above, at or below the starting wealth of 1. */
  lemma CagrSign(rets: seq<real>, pow: (real, real) -> real)
    requires IsPower(pow) && |rets| > 0 && AboveMinusOne(rets)
    ensures Cagr(rets, pow).Ok? && Cagr(rets, pow).value > -1.0
    ensures Cagr(rets, pow).value > 0.0 <==> Wealth(rets) > 1.0
    ensures Cagr(rets, pow).value == 0.0 <==> Wealth(rets) == 1.0
    ensures Cagr(rets, pow).value < 0.0 <==> Wealth(rets) < 1.0
  {
    WealthPositive(rets);
    AnnualExponent(|rets| as real);
    var e := 1.0 / ((|rets| as real) / TradingDays);
    assert e > 0.0;
    var w := pow(Wealth(rets), e);
    assert w > 0.0 && (w > 1.0 <==> Wealth(rets) > 1.0) && (w == 1.0 <==> Wealth(rets) == 1.0);
  }

  /** `-cagr / max_dd`, or +inf when the maximum drawdown is zero. */
  function GrowthPerDrawdown(growth: real, drawdown: Metric): (r: Metric)
    ensures drawdown == Finite(0.0) ==> r == PosInf
    ensures drawdown.Finite? && drawdown.value < 0.0 ==> r.Finite?
  {
    if drawdown == Finite(0.0) then PosInf else Div(Neg(Finite(growth)), drawdown)
  }

  /** `recovery_factor(returns)`. */
  function RecoveryFactor(rets: seq<real>, pow: (real, real) -> real): (r: Result<Metric>)
    ensures r.Err? <==> |rets| == 0
    ensures r.Ok? && WorstDrawdown(rets) == Finite(0.0) ==> r.value == PosInf
  {
    match Cagr(rets, pow)
    case Err(e) => Err(e)
    case Ok(c) => Ok(GrowthPerDrawdown(c, WorstDrawdown(rets)))
  }

  /** `calmar_ratio(returns)` as written: the CAGR is formed with the exponent `252 / n` and
      then multiplied by 252 a second time. */
  function CalmarAsWritten(rets: seq<real>, pow: (real, real) -> real): (r: Result<Metric>)
    ensures r.Err? <==> |rets| == 0
  {
    if |rets| == 0 then Err(EmptyInput)
    else
      var cagr := (pow(Wealth(rets), TradingDays / (|rets| as real)) - 1.0) * TradingDays;
      Ok(GrowthPerDrawdown(cagr, WorstDrawdown(rets)))
  }

  /** The Calmar ratio as its documentation defines it, CAGR over the drawdown's size. */
  function Calmar(rets: seq<real>, pow: (real, real) -> real): (r: Result<Metric>)
    ensures r.Err? <==> |rets| == 0
  {
    if |rets| == 0 then Err(EmptyInput)
    else
      var cagr := pow(Wealth(rets), TradingDays / (|rets| as real)) - 1.0;
      Ok(GrowthPerDrawdown(cagr, WorstDrawdown(rets)))
  }

  lemma AnnualExponent(n: real)
    requires n > 0.0
    ensures 1.0 / (n / TradingDays) == TradingDays / n
  {
  }

  /** The corrected Calmar ratio is the recovery factor: both divide the CAGR by the
      size of the maximum drawdown. */
  lemma CalmarIsRecoveryFactor(rets: seq<real>, pow: (real, real) -> real)
    ensures Calmar(rets, pow) == RecoveryFactor(rets, pow)
  {
    if |rets| > 0 {
      AnnualExponent(|rets| as real);
    }
  }

  /** Calmar and recovery factor are +inf exactly when there is no drawdown, and otherwise
      finite with the sign of the CAGR. */
  lemma RecoveryFactorCases(rets: seq<real>, pow: (real, real) -> real)
    requires |rets| > 0 && AboveMinusOne(rets)
    ensures RecoveryFactor(rets, pow).Ok?
    ensures RecoveryFactor(rets, pow).value == PosInf <==> NoLossAfterFirst(rets)
    ensures !NoLossAfterFirst(rets) ==>
              var r := RecoveryFactor(rets, pow).value;
              var c := Cagr(rets, pow).value;
              r.Finite? && (r.value > 0.0 <==> c > 0.0) && (r.value < 0.0 <==> c < 0.0)
  {
    NoDrawdownIff(rets);
    WorstDrawdownBounds(rets);
    var dd := WorstDrawdown(rets);
    var c := Cagr(rets, pow).value;
    if !NoLossAfterFirst(rets) {
      assert dd.value < 0.0;
      QuotientSign(c, -dd.value);
      NegatedQuotient(c, dd.value);
    }
  }

  /** With a drawdown, the recovery factor is positive exactly when the series ends above
      its starting wealth and negative exactly when it ends below it. */
  lemma RecoveryFactorGrowth(rets: seq<real>, pow: (real, real) -> real)
    requires IsPower(pow) && |rets| > 0 && AboveMinusOne(rets) && !NoLossAfterFirst(rets)
    ensures RecoveryFactor(rets, pow).Ok? && RecoveryFactor(rets, pow).value.Finite?
    ensures RecoveryFactor(rets, pow).value.value > 0.0 <==> Wealth(rets) > 1.0
    ensures RecoveryFactor(rets, pow).value.value < 0.0 <==> Wealth(rets) < 1.0
  {
    RecoveryFactorCases(rets, pow);
    CagrSign(rets, pow);
  }

  lemma NegatedQuotient(x: real, y: real)
    requires y < 0.0
    ensures -x / y == x / -y
  {
  }

  /** The Calmar ratio as written is 252 times the documented one whenever it is finite,
      so it differs from it for every series with a drawdown and a non-zero growth rate. */
  lemma CalmarAsWrittenOvershoots(rets: seq<real>, pow: (real, real) -> real)
    requires |rets| > 0 && AboveMinusOne(rets) && !NoLossAfterFirst(rets)
    requires pow(Wealth(rets), TradingDays / (|rets| as real)) != 1.0
    ensures CalmarAsWritten(rets, pow).Ok? && Calmar(rets, pow).Ok?
    ensures CalmarAsWritten(rets, pow).value.Finite? && Calmar(rets, pow).value.Finite?
    ensures CalmarAsWritten(rets, pow).value.value == TradingDays * Calmar(rets, pow).value.value
    ensures CalmarAsWritten(rets, pow).value != Calmar(rets, pow).value
  {
    NoDrawdownIff(rets);
    WorstDrawdownBounds(rets);
    var dd := WorstDrawdown(rets).value;
    assert WorstDrawdown(rets) == Finite(dd) && dd < 0.0;
    var c := pow(Wealth(rets), TradingDays / (|rets| as real)) - 1.0;
    assert CalmarAsWritten(rets, pow) == Ok(GrowthPerDrawdown(c * TradingDays, Finite(dd)));
    assert Calmar(rets, pow) == Ok(GrowthPerDrawdown(c, Finite(dd)));
    GrowthOverLoss(c * TradingDays, dd);
    GrowthOverLoss(c, dd);
    ScaledQuotient(c, dd);
  }

  /** A growth rate over a real loss is the plain quotient `-growth / drawdown`. */
  lemma GrowthOverLoss(growth: real, dd: real)
    requires dd < 0.0
    ensures GrowthPerDrawdown(growth, Finite(dd)) == Finite(-growth / dd)
  {
  }

  lemma ScaledQuotient(c: real, d: real)
    requires d < 0.0 && c != 0.0
    ensures -(c * TradingDays) / d == TradingDays * (-c / d)
    ensures -(c * TradingDays) / d != -c / d
  {
    QuotientSign(c, -d);
  }

  // ---------------------------------------------------------------------------
  // Information ratio and tracking error
  // ---------------------------------------------------------------------------

  /** `portfolio - benchmark`; arrays of different lengths do not broadcast. */
  function ActiveReturns(portfolio: seq<real>, benchmark: seq<real>): (r: Result<seq<real>>)
    ensures r.Err? <==> |portfolio| != |benchmark|
    ensures r.Ok? ==> |r.value| == |portfolio|
                      && forall i :: 0 <= i < |portfolio| ==> r.value[i] + benchmark[i] == portfolio[i]
  {
    if |portfolio| != |benchmark| then Err(ShapeMismatch) else Ok(Difference(portfolio, benchmark))
  }

  /** `mean(active) / std(active)`, or 0 when the standard deviation is zero. */
  function ActiveRatio(active: seq<real>, sqrt: real -> real): (r: Metric)
    ensures r.NaN? <==> |active| == 0
  {
    var te := StdDev(active, sqrt);
    if te == Finite(0.0) then Finite(0.0) else Div(MeanOf(active), te)
  }

  /** `information_ratio(portfolio, benchmark)`. */
  function InformationRatio(portfolio: seq<real>, benchmark: seq<real>, sqrt: real -> real)
    : (r: Result<Metric>)
    ensures r.Err? <==> |portfolio| != |benchmark|
    ensures r.Ok? ==> (r.value.NaN? <==> |portfolio| == 0)
  {
    match ActiveReturns(portfolio, benchmark)
    case Err(e) => Err(e)
    case Ok(active) => Ok(ActiveRatio(active, sqrt))
  }

  /** `tracking_error(returns, benchmark)`. */
  function TrackingError(portfolio: seq<real>, benchmark: seq<real>, sqrt: real -> real)
    : (r: Result<Metric>)
    ensures r.Err? <==> |portfolio| != |benchmark|
    ensures r.Ok? ==> (r.value.NaN? <==> |portfolio| == 0)
  {
    match ActiveReturns(portfolio, benchmark)
    case Err(e) => Err(e)
    case Ok(active) => Ok(StdDev(active, sqrt))
  }

  /** The ratio is zero exactly when the active returns have no spread or a zero mean;
      otherwise it is finite with the sign of the mean active return. */
  lemma ActiveRatioCases(active: seq<real>, sqrt: real -> real)
    requires IsSqrt(sqrt) && |active| > 0
    ensures ActiveRatio(active, sqrt).Finite?
    ensures ActiveRatio(active, sqrt) == Finite(0.0) <==> Variance(active) == 0.0 || Mean(active) == 0.0
    ensures Variance(active) > 0.0 ==>
              (ActiveRatio(active, sqrt).value > 0.0 <==> Mean(active) > 0.0)
  {
    StdDevZero(active, sqrt);
    var s := sqrt(Variance(active));
    if Variance(active) != 0.0 {
      QuotientSign(Mean(active), s);
    }
  }

  /** A portfolio measured against itself has an information ratio of zero. */
  lemma InformationRatioOfItself(portfolio: seq<real>, sqrt: real -> real)
    requires IsSqrt(sqrt) && |portfolio| > 0
    ensures InformationRatio(portfolio, portfolio, sqrt) == Ok(Finite(0.0))
    ensures TrackingError(portfolio, portfolio, sqrt) == Ok(Finite(0.0))
  {
    var active := Difference(portfolio, portfolio);
    assert IsFlat(active);
    VarianceFacts(active);
    StdDevZero(active, sqrt);
  }

  // ---------------------------------------------------------------------------
  // Beta and alpha
  // ---------------------------------------------------------------------------

  /** A series with non-zero variance has at least two observations. */
  lemma SpreadNeedsTwo(s: seq<real>)
    requires |s| > 0 && Variance(s) != 0.0
    ensures |s| >= 2
  {
    if |s| == 1 {
      SingletonFlat(s);
      VarianceFacts(s);
    }
  }

  /** `beta(returns, market)` as written: `np.cov` (ddof = 1) over `np.var` (ddof = 0). */
  function BetaAsWritten(rets: seq<real>, market: seq<real>): (r: Result<Metric>)
    ensures r.Err? <==> |rets| != |market|
    ensures r.Ok? ==> (r.value.NaN? <==> |market| == 0) && (r.value.Finite? <==> |market| > 0)
    ensures r.Ok? && |market| > 0 && Variance(market) == 0.0 ==> r.value == Finite(0.0)
  {
    if |rets| != |market| then Err(ShapeMismatch)
    else if |market| == 0 then Ok(NaN)
    else if Variance(market) == 0.0 then Ok(Finite(0.0))
    else
      SpreadNeedsTwo(market);
      Ok(Finite(SampleCovariance(rets, market) / Variance(market)))
  }

  /** Beta with numerator and denominator both population moments (ddof = 0). */
  function Beta(rets: seq<real>, market: seq<real>): (r: Result<Metric>)
    ensures r.Err? <==> |rets| != |market|
    ensures r.Ok? ==> (r.value.NaN? <==> |market| == 0) && (r.value.Finite? <==> |market| > 0)
    ensures r.Ok? && |market| > 0 && Variance(market) == 0.0 ==> r.value == Finite(0.0)
  {
    if |rets| != |market| then Err(ShapeMismatch)
    else if |market| == 0 then Ok(NaN)
    else if Variance(market) == 0.0 then Ok(Finite(0.0))
    else Ok(Finite(Covariance(rets, market) / Variance(market)))
  }

  /** The market's beta against itself is one. */
  lemma BetaOfMarket(market: seq<real>)
    requires |market| > 0 && Variance(market) != 0.0
    ensures Beta(market, market) == Ok(Finite(1.0))
  {
    CrossDeviationsDiagonal(market, Mean(market));
    SelfQuotient(Variance(market));
  }

  lemma SelfQuotient(x: real)
    requires x != 0.0
    ensures x / x == 1.0
  {
  }

  /** As written, the market's beta against itself is n / (n - 1) rather than one. */
  lemma BetaAsWrittenOfMarket(market: seq<real>)
    requires |market| > 0 && Variance(market) != 0.0
    ensures |market| >= 2
    ensures BetaAsWritten(market, market)
            == Ok(Finite((|market| as real) / ((|market| - 1) as real)))
    ensures BetaAsWritten(market, market) != Ok(Finite(1.0))
  {
    SpreadNeedsTwo(market);
    var n := |market| as real;
    var s := SquaredDeviations(market, Mean(market));
    CrossDeviationsDiagonal(market, Mean(market));
    assert s != 0.0 by {
      assert Variance(market) == s / n;
    }
    DdofRatio(s, n);
  }

  lemma DdofRatio(s: real, n: real)
    requires s != 0.0 && n >= 2.0
    ensures (s / (n - 1.0)) / (s / n) == n / (n - 1.0)
    ensures n / (n - 1.0) != 1.0
  {
  }

  /** Two days of market returns, 0 then 1: the beta of the market on itself comes out 2. */
  lemma BetaAsWrittenExample()
    ensures BetaAsWritten([0.0, 1.0], [0.0, 1.0]) == Ok(Finite(2.0))
  {
    var m := [0.0, 1.0];
    assert Sum(m) == 1.0;
    assert Mean(m) == 0.5;
    assert SquaredDeviations(m, 0.5) == 0.5;
    BetaAsWrittenOfMarket(m);
  }

  /** The mean return less the CAPM expectation `capm + beta (mean(market) - rf)`, the CAPM
      base defaulting to the risk-free rate. */
  function JensenAlpha(rets: seq<real>, market: seq<real>, beta: real, capm: Option<real>,
                       riskFree: real): real
    requires |rets| > 0 && |market| > 0
  {
    var expectedBase := match capm case Some(c) => c case None => riskFree;
    Mean(rets) - (expectedBase + beta * (Mean(market) - riskFree))
  }

  /** `alpha(returns, market, capm_return)` with the corrected beta. */
  function Alpha(rets: seq<real>, market: seq<real>, capm: Option<real>, riskFree: real)
    : (r: Result<Metric>)
    ensures r.Err? <==> |rets| != |market|
    ensures r.Ok? ==> (r.value.NaN? <==> |market| == 0)
  {
    match Beta(rets, market)
    case Err(e) => Err(e)
    case Ok(b) =>
      if |market| == 0 then Ok(NaN)
      else Ok(Finite(JensenAlpha(rets, market, b.value, capm, riskFree)))
  }

  /** `alpha(returns, market, capm_return)` as written, on top of `beta` as written. */
  function AlphaAsWritten(rets: seq<real>, market: seq<real>, capm: Option<real>, riskFree: real)
    : (r: Result<Metric>)
    ensures r.Err? <==> |rets| != |market|
    ensures r.Ok? ==> (r.value.NaN? <==> |market| == 0)
  {
    match BetaAsWritten(rets, market)
    case Err(e) => Err(e)
    case Ok(b) =>
      if |market| == 0 then Ok(NaN)
      else Ok(Finite(JensenAlpha(rets, market, b.value, capm, riskFree)))
  }

  /** Against a flat market (zero beta) alpha is the mean return less the CAPM base. */
  lemma AlphaFlatMarket(rets: seq<real>, market: seq<real>, capm: Option<real>, riskFree: real)
    requires |rets| == |market| > 0 && Variance(market) == 0.0
    ensures Alpha(rets, market, capm, riskFree)
            == Ok(Finite(Mean(rets) - (if capm.Some? then capm.value else riskFree)))
    ensures AlphaAsWritten(rets, market, capm, riskFree) == Alpha(rets, market, capm, riskFree)
  {
  }

  /** With the corrected beta the market itself earns exactly its CAPM expectation: zero
      alpha. */
  lemma MarketHasNoAlpha(market: seq<real>, riskFree: real)
    requires |market| > 0 && Variance(market) != 0.0
    ensures Alpha(market, market, None, riskFree) == Ok(Finite(0.0))
  {
    BetaOfMarket(market);
  }

  /** As written, the market measured against itself has alpha `-(mean - rf) / (n - 1)`, which
      is zero only when the market's mean return equals the risk-free rate. */
  lemma AlphaAsWrittenOfMarket(market: seq<real>, riskFree: real)
    requires |market| > 0 && Variance(market) != 0.0
    ensures |market| >= 2
    ensures AlphaAsWritten(market, market, None, riskFree)
            == Ok(Finite(-(Mean(market) - riskFree) / ((|market| - 1) as real)))
  {
    BetaAsWrittenOfMarket(market);
    var n := |market| as real;
    assert ((|market| - 1) as real) == n - 1.0;
    var b := n / (n - 1.0);
    assert BetaAsWritten(market, market) == Ok(Finite(b));
    assert JensenAlpha(market, market, b, None, riskFree)
           == Mean(market) - (riskFree + b * (Mean(market) - riskFree));
    assert AlphaAsWritten(market, market, None, riskFree)
           == Ok(Finite(JensenAlpha(market, market, b, None, riskFree)));
    ExcessOverSampleSize(Mean(market), riskFree, n);
    assert JensenAlpha(market, market, b, None, riskFree) == -(Mean(market) - riskFree) / (n - 1.0);
  }

  lemma ExcessOverSampleSize(mu: real, rf: real, n: real)
    requires n >= 2.0
    ensures mu - (rf + n / (n - 1.0) * (mu - rf)) == -(mu - rf) / (n - 1.0)
  {
    var k := n - 1.0;
    assert n / k == 1.0 + 1.0 / k;
  }

  /** Two days of market returns, 0 then 1, at a zero risk-free rate: as written the market
      has an alpha of -0.5 on itself. */
  lemma AlphaAsWrittenExample()
    ensures AlphaAsWritten([0.0, 1.0], [0.0, 1.0], None, 0.0) == Ok(Finite(-0.5))
  {
    var m := [0.0, 1.0];
    assert Sum(m) == 1.0;
    assert Mean(m) == 0.5;
    assert SquaredDeviations(m, 0.5) == 0.5;
    AlphaAsWrittenOfMarket(m, 0.0);
  }

  // ---------------------------------------------------------------------------
  // Value at risk and conditional value at risk
  // ---------------------------------------------------------------------------

  /** What the model relies on about `norm.ppf`: the standard normal quantile is negative
      below the median, zero at it and positive above it. */
  ghost predicate IsNormalQuantile(ppf: real -> real)
  {
    forall p :: (0.0 < p < 0.5 ==> ppf(p) < 0.0) && (0.5 < p < 1.0 ==> ppf(p) > 0.0)
  }

  /** `norm.ppf(p)` on float64: the quantile `ppf(p)` strictly inside (0, 1), -inf at 0,
      +inf at 1 and NaN outside [0, 1]. */
  function NormalPpf(ppf: real -> real, p: real): (z: Metric)
    ensures z.Finite? <==> 0.0 < p < 1.0
    ensures z.Finite? ==> z.value == ppf(p)
    ensures z == NegInf <==> p == 0.0
    ensures z == PosInf <==> p == 1.0
    ensures z.NaN? <==> p < 0.0 || 1.0 < p
  {
    if p < 0.0 || 1.0 < p then NaN
    else if p == 0.0 then NegInf
    else if p == 1.0 then PosInf
    else Finite(ppf(p))
  }

  /** `value_at_risk(returns, confidence)` as written: `mean - ppf(1 - c) * std`. The mean of
      an empty series is NaN; a confidence of 1 or 0 makes the quantile infinite, and a
      confidence outside [0, 1] makes it NaN. */
  function ValueAtRiskAsWritten(rets: seq<real>, confidence: real, ppf: real -> real,
                                sqrt: real -> real): (r: Metric)
    ensures r.Finite? <==> |rets| > 0 && 0.0 < confidence < 1.0
    ensures r.Finite? ==> r.value == Mean(rets) - ppf(1.0 - confidence) * sqrt(Variance(rets))
    ensures r.NaN? <==> |rets| == 0 || confidence < 0.0 || 1.0 < confidence
                        || ((confidence == 0.0 || confidence == 1.0) && sqrt(Variance(rets)) == 0.0)
    ensures |rets| > 0 && sqrt(Variance(rets)) > 0.0 ==>
              (confidence == 1.0 ==> r == PosInf) && (confidence == 0.0 ==> r == NegInf)
  {
    if |rets| == 0 then NaN
    else
      var z := NormalPpf(ppf, 1.0 - confidence);
      var r := Affine(Mean(rets), z, -sqrt(Variance(rets)));
      assert r.Finite? ==> z == Finite(ppf(1.0 - confidence));
      r
  }

  /** Parametric value at risk `mean + ppf(1 - c) * std`: the return quantile at level 1 - c,
      with the same NaN and infinite edges as the code. */
  function ValueAtRisk(rets: seq<real>, confidence: real, ppf: real -> real,
                       sqrt: real -> real): (r: Metric)
    ensures r.Finite? <==> |rets| > 0 && 0.0 < confidence < 1.0
    ensures r.Finite? ==> r.value == Mean(rets) + ppf(1.0 - confidence) * sqrt(Variance(rets))
    ensures r.NaN? <==> |rets| == 0 || confidence < 0.0 || 1.0 < confidence
                        || ((confidence == 0.0 || confidence == 1.0) && sqrt(Variance(rets)) == 0.0)
    ensures |rets| > 0 && sqrt(Variance(rets)) > 0.0 ==>
              (confidence == 1.0 ==> r == NegInf) && (confidence == 0.0 ==> r == PosInf)
  {
    if |rets| == 0 then NaN
    else
      var z := NormalPpf(ppf, 1.0 - confidence);
      var r := Affine(Mean(rets), z, sqrt(Variance(rets)));
      assert r.Finite? ==> z == Finite(ppf(1.0 - confidence));
      r
  }

  lemma NegativeTimesPositive(z: real, s: real)
    requires z < 0.0 && s >= 0.0
    ensures z * s <= 0.0
    ensures z * s == 0.0 <==> s == 0.0
  {
    if s > 0.0 {
      MulPositive(-z, s);
    }
  }

  /** For a confidence above one half the corrected threshold lies at or below the mean,
      strictly below it when the returns vary; the threshold as written lies on the other
      side of the mean. */
  lemma ValueAtRiskSides(rets: seq<real>, confidence: real, ppf: real -> real, sqrt: real -> real)
    requires IsNormalQuantile(ppf) && IsSqrt(sqrt)
    requires |rets| > 0 && 0.5 < confidence < 1.0
    ensures ValueAtRisk(rets, confidence, ppf, sqrt).value <= Mean(rets)
    ensures ValueAtRisk(rets, confidence, ppf, sqrt).value < Mean(rets) <==> Variance(rets) > 0.0
    ensures ValueAtRiskAsWritten(rets, confidence, ppf, sqrt).value >= Mean(rets)
    ensures ValueAtRiskAsWritten(rets, confidence, ppf, sqrt).value > Mean(rets)
            <==> Variance(rets) > 0.0
  {
    VarianceFacts(rets);
    var z := ppf(1.0 - confidence);
    assert z < 0.0;
    var s := sqrt(Variance(rets));
    NegativeTimesPositive(z, s);
  }

  /** Two days of returns, -1% and +1%: the 95% value at risk as written is a gain. */
  lemma ValueAtRiskAsWrittenExample(ppf: real -> real, sqrt: real -> real)
    requires IsNormalQuantile(ppf) && IsSqrt(sqrt)
    ensures ValueAtRiskAsWritten([-0.01, 0.01], 0.95, ppf, sqrt).value > 0.0
    ensures ValueAtRisk([-0.01, 0.01], 0.95, ppf, sqrt).value < 0.0
  {
    var r := [-0.01, 0.01];
    assert Sum(r) == 0.0;
    assert Mean(r) == 0.0;
    assert SquaredDeviations(r, 0.0) == 0.0002;
    assert Variance(r) == 0.0001;
    ValueAtRiskSides(r, 0.95, ppf, sqrt);
  }

  /** `returns[returns <= threshold].mean()`: NaN when no return is at or below it. */
  function TailMean(rets: seq<real>, threshold: real): (r: Metric)
    ensures r.NaN? <==> forall i :: 0 <= i < |rets| ==> rets[i] > threshold
    ensures !r.NaN? ==> r.Finite?
    ensures r.Finite? ==> r.value <= threshold && |rets| > 0 && Minimum(rets) <= r.value
  {
    var tail := AtMost(rets, threshold);
    if |tail| == 0 then NaN
    else
      assert |rets| > 0;
      assert forall i :: 0 <= i < |tail| ==> Minimum(rets) <= tail[i];
      MeanBounds(tail, Minimum(rets), threshold);
      Finite(Mean(tail))
  }

  /** `returns[returns <= var].mean()` for a threshold that may be infinite or NaN: every
      return is at or below +inf, and none is at or below -inf or NaN. */
  function TailMeanAt(rets: seq<real>, threshold: Metric): (r: Metric)
    ensures threshold.Finite? ==> r == TailMean(rets, threshold.value)
    ensures threshold.PosInf? ==> (r.NaN? <==> |rets| == 0) && (r.Finite? ==> r.value == Mean(rets))
    ensures threshold.NegInf? || threshold.NaN? ==> r.NaN?
  {
    match threshold
    case Finite(v) => TailMean(rets, v)
    case PosInf => if |rets| == 0 then NaN else Finite(Mean(rets))
    case _ => NaN
  }

  /** `conditional_value_at_risk(returns, confidence)`: the mean of the returns at or below
      the value at risk. */
  function ConditionalValueAtRisk(rets: seq<real>, confidence: real, ppf: real -> real,
                                  sqrt: real -> real): (r: Metric)
    ensures r.Finite? && ValueAtRisk(rets, confidence, ppf, sqrt).Finite? ==>
              r.value <= ValueAtRisk(rets, confidence, ppf, sqrt).value
    ensures r.Finite? ==> |rets| > 0 && 0.0 <= confidence <= 1.0
    ensures r.Finite? && confidence == 0.0 ==> r.value == Mean(rets)
  {
    TailMeanAt(rets, ValueAtRisk(rets, confidence, ppf, sqrt))
  }

  /** `conditional_value_at_risk(returns, confidence)` as written: the tail is cut at the value
      at risk as written. */
  function ConditionalValueAtRiskAsWritten(rets: seq<real>, confidence: real, ppf: real -> real,
                                           sqrt: real -> real): (r: Metric)
    ensures r.Finite? && ValueAtRiskAsWritten(rets, confidence, ppf, sqrt).Finite? ==>
              r.value <= ValueAtRiskAsWritten(rets, confidence, ppf, sqrt).value
    ensures r.Finite? ==> |rets| > 0 && 0.0 <= confidence <= 1.0
    ensures r.Finite? && confidence == 1.0 ==> r.value == Mean(rets)
  {
    TailMeanAt(rets, ValueAtRiskAsWritten(rets, confidence, ppf, sqrt))
  }

  /** As written, CVaR is finite for every non-empty series at a confidence above one half:
      the threshold lies at or above the mean, so at least the smallest return is in the
      tail. It lies between the smallest return and the threshold. */
  lemma ConditionalValueAtRiskAsWrittenFinite(rets: seq<real>, confidence: real, ppf: real -> real,
                                              sqrt: real -> real)
    requires IsNormalQuantile(ppf) && IsSqrt(sqrt)
    requires |rets| > 0 && 0.5 < confidence < 1.0
    ensures var c := ConditionalValueAtRiskAsWritten(rets, confidence, ppf, sqrt);
            c.Finite? && Minimum(rets) <= c.value <= ValueAtRiskAsWritten(rets, confidence, ppf, sqrt).value
  {
    ValueAtRiskSides(rets, confidence, ppf, sqrt);
    MeanAtLeast(rets, Minimum(rets));
    var i :| 0 <= i < |rets| && rets[i] == Minimum(rets);
    assert rets[i] <= ValueAtRiskAsWritten(rets, confidence, ppf, sqrt).value;
  }

  /** Two days of returns, -1% and +1%, at 95% with the library's `ppf(0.05)` below -1: as
      written the tail holds both days and CVaR is 0; with the corrected threshold no day is
      in the tail and CVaR is NaN. */
  lemma ConditionalValueAtRiskAsWrittenExample(ppf: real -> real, sqrt: real -> real)
    requires IsSqrt(sqrt) && sqrt(0.0001) == 0.01 && ppf(0.05) < -1.0
    ensures ConditionalValueAtRiskAsWritten([-0.01, 0.01], 0.95, ppf, sqrt) == Finite(0.0)
    ensures ConditionalValueAtRisk([-0.01, 0.01], 0.95, ppf, sqrt) == NaN
  {
    var r := [-0.01, 0.01];
    TwoDayMoments();
    var z := ppf(0.05);
    assert 1.0 - 0.95 == 0.05;
    assert ValueAtRiskAsWritten(r, 0.95, ppf, sqrt) == Finite(0.0 - z * 0.01);
    assert ValueAtRisk(r, 0.95, ppf, sqrt) == Finite(0.0 + z * 0.01);
    TwoDayWideTail(0.0 - z * 0.01);
    TwoDayEmptyTail(0.0 + z * 0.01);
  }

  /** The mean and variance of the two days -1% and +1%. */
  lemma TwoDayMoments()
    ensures Mean([-0.01, 0.01]) == 0.0 && Variance([-0.01, 0.01]) == 0.0001
  {
    var r := [-0.01, 0.01];
    assert Sum(r) == 0.0;
    assert Mean(r) == 0.0;
    assert SquaredDeviations(r, 0.0) == 0.0002;
  }

  /** A threshold above 1% keeps both days. */
  lemma TwoDayWideTail(high: real)
    requires high > 0.01
    ensures TailMean([-0.01, 0.01], high) == Finite(0.0)
  {
    var r := [-0.01, 0.01];
    assert AtMost([0.01], high) == [0.01];
    assert AtMost(r, high) == r;
    TwoDayMoments();
  }

  /** A threshold below -1% keeps neither day. */
  lemma TwoDayEmptyTail(low: real)
    requires low < -0.01
    ensures TailMean([-0.01, 0.01], low) == NaN
  {
    var r := [-0.01, 0.01];
    assert r[0] > low && r[1] > low;
  }

  /** With the corrected threshold, CVaR is defined exactly when some return is at or below
      VaR, and then lies at or below both VaR and the mean. */
  lemma ConditionalValueAtRiskBounds(rets: seq<real>, confidence: real, ppf: real -> real,
                                     sqrt: real -> real)
    requires IsNormalQuantile(ppf) && IsSqrt(sqrt)
    requires |rets| > 0 && 0.5 < confidence < 1.0
    ensures var v := ValueAtRisk(rets, confidence, ppf, sqrt).value;
            var c := ConditionalValueAtRisk(rets, confidence, ppf, sqrt);
            (c.Finite? <==> exists i :: 0 <= i < |rets| && rets[i] <= v)
            && (c.Finite? ==> c.value <= v <= Mean(rets))
  {
    ValueAtRiskSides(rets, confidence, ppf, sqrt);
  }

  // ---------------------------------------------------------------------------
  // Trading statistics
  // ---------------------------------------------------------------------------

  /** `profit_factor(returns)`: summed gains over summed losses. */
  function ProfitFactor(rets: seq<real>): (r: Metric)
    ensures r.PosInf? || (r.Finite? && r.value >= 0.0)
  {
    var gains := Sum(Above(rets, 0.0));
    var losses := Sum(Below(rets, 0.0));
    SumOfPositives(Above(rets, 0.0));
    SumOfNegatives(Below(rets, 0.0));
    if losses == 0.0 then (if gains > 0.0 then PosInf else Finite(0.0))
    else
      GainLossRatio(gains, losses);
      Finite(-gains / losses)
  }

  lemma GainLossRatio(g: real, l: real)
    requires g >= 0.0 && l < 0.0
    ensures -g / l >= 0.0
    ensures -g / l == 0.0 <==> g == 0.0
  {
    QuotientSign(g, -l);
    NegatedQuotient(g, l);
  }

  /** Profit factor is +inf exactly when there are gains and no losses, zero exactly when
      there are no gains, and otherwise a finite positive number. */
  lemma ProfitFactorCases(rets: seq<real>)
    ensures var pf := ProfitFactor(rets);
            var gain := exists i :: 0 <= i < |rets| && rets[i] > 0.0;
            var loss := exists i :: 0 <= i < |rets| && rets[i] < 0.0;
            (pf == PosInf <==> gain && !loss)
            && (pf == Finite(0.0) <==> !gain)
            && (gain && loss ==> pf.Finite? && pf.value > 0.0)
            && (pf.Finite? ==> pf.value >= 0.0)
            && !pf.NaN? && !pf.NegInf?
  {
    var above := Above(rets, 0.0);
    var below := Below(rets, 0.0);
    SumOfPositives(above);
    SumOfNegatives(below);
    var g := Sum(above);
    var l := Sum(below);
    if l != 0.0 {
      GainLossRatio(g, l);
    }
  }

  /** `win_rate(returns)`: the share of positive returns (0 / 0 is NaN). */
  function WinRate(rets: seq<real>): (r: Metric)
    ensures r.NaN? <==> |rets| == 0
  {
    Quotient(|Above(rets, 0.0)| as real, |rets| as real)
  }

  lemma FractionBounds(c: real, n: real)
    requires 0.0 <= c <= n && n > 0.0
    ensures 0.0 <= c / n <= 1.0
    ensures c / n == 1.0 <==> c == n
    ensures c / n == 0.0 <==> c == 0.0
  {
  }

  /** The win rate of a non-empty series is a fraction in [0, 1]: one exactly when every
      return is positive and zero exactly when none is. */
  lemma WinRateBounds(rets: seq<real>)
    requires |rets| > 0
    ensures WinRate(rets).Finite?
    ensures 0.0 <= WinRate(rets).value <= 1.0
    ensures WinRate(rets).value == 1.0 <==> forall i :: 0 <= i < |rets| ==> rets[i] > 0.0
    ensures WinRate(rets).value == 0.0 <==> forall i :: 0 <= i < |rets| ==> rets[i] <= 0.0
  {
    FractionBounds(|Above(rets, 0.0)| as real, |rets| as real);
  }

  /** `payoff_ratio(returns)`: the average gain over the size of the average loss. */
  function PayoffRatio(rets: seq<real>): (r: Metric)
    ensures r.PosInf? || (r.Finite? && r.value >= 0.0)
  {
    var gains := Above(rets, 0.0);
    var losses := Below(rets, 0.0);
    if |losses| == 0 then PosInf
    else
      var avgGain := if |gains| > 0 then Mean(gains) else 0.0;
      var avgLoss := Mean(losses);
      MeanSign(losses);
      AverageGainSign(gains);
      GainLossRatio(avgGain, avgLoss);
      if avgLoss != 0.0 then Finite(-avgGain / avgLoss) else PosInf
  }

  lemma MeanSign(s: seq<real>)
    requires |s| > 0
    ensures (forall i :: 0 <= i < |s| ==> s[i] > 0.0) ==> Mean(s) > 0.0
    ensures (forall i :: 0 <= i < |s| ==> s[i] < 0.0) ==> Mean(s) < 0.0
  {
    if forall i :: 0 <= i < |s| ==> s[i] > 0.0 {
      SumOfPositives(s);
      QuotientSign(Sum(s), |s| as real);
    }
    if forall i :: 0 <= i < |s| ==> s[i] < 0.0 {
      SumOfNegatives(s);
      QuotientSign(Sum(s), |s| as real);
    }
  }

  /** The average gain, taken as 0 without gains, is non-negative and zero exactly without
      gains. */
  lemma AverageGainSign(gains: seq<real>)
    requires forall i :: 0 <= i < |gains| ==> gains[i] > 0.0
    ensures (if |gains| > 0 then Mean(gains) else 0.0) >= 0.0
    ensures (if |gains| > 0 then Mean(gains) else 0.0) == 0.0 <==> |gains| == 0
  {
    if |gains| > 0 {
      MeanSign(gains);
    }
  }

  /** The payoff ratio is +inf exactly when there is no losing return (the average of the
      losses, when there are any, is never zero); otherwise it is finite, non-negative and
      zero exactly when there is no gain. */
  lemma PayoffRatioCases(rets: seq<real>)
    ensures var p := PayoffRatio(rets);
            var gain := exists i :: 0 <= i < |rets| && rets[i] > 0.0;
            var loss := exists i :: 0 <= i < |rets| && rets[i] < 0.0;
            (p == PosInf <==> !loss)
            && (loss ==> p.Finite? && p.value >= 0.0 && (p.value == 0.0 <==> !gain))
  {
    var gains := Above(rets, 0.0);
    var losses := Below(rets, 0.0);
    if |losses| > 0 {
      MeanSign(losses);
      var g := if |gains| > 0 then Mean(gains) else 0.0;
      AverageGainSign(gains);
      GainLossRatio(g, Mean(losses));
    }
  }

  // ---------------------------------------------------------------------------
  // comprehensive_analysis
  // ---------------------------------------------------------------------------

  /** The keys every report carries, in insertion order. */
  const BaseKeys: seq<string> := [
    "Mean Return", "Median Return", "Volatility (Daily)", "Volatility (Annual)", "Variance",
    "Sharpe Ratio", "Sortino Ratio", "Calmar Ratio", "Maximum Drawdown", "CAGR",
    "Recovery Factor", "VaR (95%)", "CVaR (95%)", "Skewness", "Kurtosis", "Win Rate",
    "Profit Factor", "Payoff Ratio"]

  const BenchmarkKeys: seq<string> := ["Information Ratio", "Tracking Error"]
  const MarketKeys: seq<string> := ["Beta", "Alpha"]

  /** The keys of `comprehensive_analysis(returns, benchmark, market)`, in insertion order. */
  function ReportKeys(hasBenchmark: bool, hasMarket: bool): (keys: seq<string>)
    ensures |keys| == |BaseKeys| + (if hasBenchmark then 2 else 0) + (if hasMarket then 2 else 0)
    ensures keys[..|BaseKeys|] == BaseKeys
    ensures "Information Ratio" in keys <==> hasBenchmark
    ensures "Tracking Error" in keys <==> hasBenchmark
    ensures "Beta" in keys <==> hasMarket
    ensures "Alpha" in keys <==> hasMarket
  {
    ConditionalKeysAreNew();
    BaseKeys + (if hasBenchmark then BenchmarkKeys else []) + (if hasMarket then MarketKeys else [])
  }

  /** No conditional key collides with a base key or with the other group's keys. */
  lemma ConditionalKeysAreNew()
    ensures "Information Ratio" !in BaseKeys && "Tracking Error" !in BaseKeys
    ensures "Beta" !in BaseKeys && "Alpha" !in BaseKeys
    ensures "Beta" !in BenchmarkKeys && "Alpha" !in BenchmarkKeys
    ensures "Information Ratio" !in MarketKeys && "Tracking Error" !in MarketKeys
  {
    forall i | 0 <= i < |BaseKeys|
      ensures BaseKeys[i] != "Information Ratio" && BaseKeys[i] != "Tracking Error"
      ensures BaseKeys[i] != "Beta" && BaseKeys[i] != "Alpha"
    {
    }
  }
}

=== FILE: schedule.dfy ===
/** The rolling-window schedule of `PortfolioBacktester.run_backtest`
    (portfolio_optimization/backtesting/rolling_backtest.py): the cursor walks
    `range(W, T, F)`; at cursor `i` the model trains on rows `[i - W, i)` and is scored on
    rows `[i, min(i + F, T))`. */
module Schedule {

  /** `range(start, stop, step)` for a positive step. */
  function Cursors(start: nat, stop: nat, step: nat): (cs: seq<nat>)
    requires step > 0
    ensures forall k :: 0 <= k < |cs| ==> cs[k] == start + k * step && cs[k] < stop
    ensures |cs| == 0 <==> stop <= start
    ensures |cs| > 0 ==> (|cs| - 1) * step < stop - start <= |cs| * step
    decreases stop - start
  {
    if start >= stop then []
    else
      var rest := Cursors(start + step, stop, step);
      ConsCursor(start, stop, step, rest);
      [start] + rest
  }

  /** Putting `start` in front of the cursors from `start + step` gives the cursors from
      `start`. */
  lemma ConsCursor(start: nat, stop: nat, step: nat, rest: seq<nat>)
    requires step > 0 && start < stop
    requires forall k :: 0 <= k < |rest| ==> rest[k] == start + step + k * step && rest[k] < stop
    requires |rest| == 0 <==> stop <= start + step
    requires |rest| > 0 ==> (|rest| - 1) * step < stop - (start + step) <= |rest| * step
    ensures var cs := [start] + rest;
            forall k :: 0 <= k < |cs| ==> cs[k] == start + k * step && cs[k] < stop
    ensures (|rest| + 1 - 1) * step < stop - start <= (|rest| + 1) * step
  {
    var cs := [start] + rest;
    forall k | 0 <= k < |cs| ensures cs[k] == start + k * step && cs[k] < stop {
      if k > 0 {
        assert cs[k] == rest[k - 1];
        StepMultiple(k - 1, step);
      }
    }
    StepMultiple(|rest|, step);
  }

  /** One more step adds one step: `(k + 1) F == k F + F`. */
  lemma StepMultiple(k: int, step: int)
    ensures (k + 1) * step == k * step + step
  {
  }

  /** The `k`-th cursor of `range(start, stop, step)`. */
  function Cursor(start: nat, step: nat, k: nat): (c: nat)
    ensures start <= c
  {
    start + k * step
  }

  lemma CursorStep(start: nat, step: nat, k: nat)
    ensures Cursor(start, step, k + 1) == Cursor(start, step, k) + step
  {
    StepMultiple(k, step);
  }

  /** The number of periods the backtest runs: the ceiling of (T - W) / F, or none when
      the history is no longer than the training window. */
  function PeriodCount(windowSize: nat, days: nat, frequency: nat): nat
    requires frequency > 0
  {
    if days <= windowSize then 0 else (days - windowSize + frequency - 1) / frequency
  }

  /** The ceiling is the only count `n` with `(n - 1) F < d <= n F`. */
  lemma CeilingUnique(d: nat, f: nat, n: nat)
    requires f > 0 && d > 0 && (n - 1) * f < d <= n * f
    ensures (d + f - 1) / f == n
  {
    var q := (d + f - 1) / f;
    var r := (d + f - 1) % f;
    assert q * f + r == d + f - 1 && 0 <= r < f;
    if q < n {
      MonotoneProduct(q + 1, n, f);
      assert false;
    } else if q > n {
      MonotoneProduct(n + 1, q, f);
      assert false;
    }
  }

  lemma MonotoneProduct(a: int, b: int, f: int)
    requires a <= b && f > 0
    ensures a * f <= b * f
  {
  }

  /** The loop visits exactly `ceil((T - W) / F)` cursors. */
  lemma CursorCount(windowSize: nat, days: nat, frequency: nat)
    requires frequency > 0
    ensures |Cursors(windowSize, days, frequency)| == PeriodCount(windowSize, days, frequency)
  {
    var cs := Cursors(windowSize, days, frequency);
    if days > windowSize {
      CeilingUnique(days - windowSize, frequency, |cs|);
    }
  }

  /** Two years of daily data, a one-year window and quarterly rebalancing: four periods. */
  lemma CursorCountExample()
    ensures |Cursors(252, 504, 63)| == 4
  {
    CursorCount(252, 504, 63);
  }

  /** The row ranges used at one cursor; every range is half-open. */
  datatype Window = Window(trainStart: nat, trainEnd: nat, testStart: nat, testEnd: nat)

  /** `iloc[i - W : i]` and `iloc[i : min(i + F, T)]`. */
  function WindowAt(i: nat, windowSize: nat, frequency: nat, days: nat): (w: Window)
    requires windowSize <= i
    ensures w.trainEnd - w.trainStart == windowSize && w.trainEnd == w.testStart == i
    ensures w.testEnd == i + frequency || w.testEnd == days
    ensures w.testEnd <= i + frequency && w.testEnd <= days
  {
    Window(i - windowSize, i, i, if i + frequency < days then i + frequency else days)
  }

  /** The windows of the whole run, in order. */
  function Windows(windowSize: nat, days: nat, frequency: nat): (ws: seq<Window>)
    requires frequency > 0
    ensures |ws| == |Cursors(windowSize, days, frequency)|
    ensures forall k :: 0 <= k < |ws| ==> ws[k] == WindowAt(Cursor(windowSize, frequency, k), windowSize, frequency, days)
  {
    var cs := Cursors(windowSize, days, frequency);
    seq(|cs|, k requires 0 <= k < |cs| => WindowAt(cs[k], windowSize, frequency, days))
  }

  /** Every training slice holds exactly W rows, so the `len(train_window) < W` break never
      fires; every test slice is non-empty, at most F rows long, starts where its training
      slice ends and lies inside the data, so the `len(test_window) == 0` break never fires. */
  lemma WindowShapes(windowSize: nat, days: nat, frequency: nat)
    requires frequency > 0
    ensures var ws := Windows(windowSize, days, frequency);
            forall k :: 0 <= k < |ws| ==>
              ws[k].trainEnd - ws[k].trainStart == windowSize
              && ws[k].testStart == ws[k].trainEnd
              && ws[k].testStart < ws[k].testEnd <= days
              && ws[k].testEnd - ws[k].testStart <= frequency
  {
    var cs := Cursors(windowSize, days, frequency);
    var ws := Windows(windowSize, days, frequency);
    forall k | 0 <= k < |ws| ensures ws[k].testStart < ws[k].testEnd {
      assert ws[k].testStart == cs[k] < days;
    }
  }

  /** Consecutive test slices meet end to start, the first starts at W and the last ends at
      T: together they tile `[W, T)`. */
  lemma TestSlicesTile(windowSize: nat, days: nat, frequency: nat)
    requires frequency > 0 && windowSize < days
    ensures var ws := Windows(windowSize, days, frequency);
            |ws| > 0 && ws[0].testStart == windowSize && ws[|ws| - 1].testEnd == days
            && forall k :: 0 <= k < |ws| - 1 ==> ws[k].testEnd == ws[k + 1].testStart
  {
    var cs := Cursors(windowSize, days, frequency);
    var ws := Windows(windowSize, days, frequency);
    var n := |ws|;
    assert ws[0].testStart == windowSize + 0 * frequency;
    assert (n - 1) * frequency < days - windowSize <= n * frequency;
    StepMultiple(n - 1, frequency);
    forall k | 0 <= k < n - 1 ensures ws[k].testEnd == ws[k + 1].testStart {
      StepMultiple(k, frequency);
      assert cs[k + 1] < days;
    }
  }

  /** Test slices never overlap: an earlier one ends before a later one starts. */
  lemma TestSlicesDisjoint(windowSize: nat, days: nat, frequency: nat)
    requires frequency > 0
    ensures var ws := Windows(windowSize, days, frequency);
            forall k, l :: 0 <= k < l < |ws| ==> ws[k].testEnd <= ws[l].testStart
  {
    var ws := Windows(windowSize, days, frequency);
    forall k, l | 0 <= k < l < |ws| ensures ws[k].testEnd <= ws[l].testStart {
      StepMultiple(k, frequency);
      MonotoneProduct(k + 1, l, frequency);
    }
  }

  /** Every day after the first training window is scored in some test slice. */
  lemma EveryDayScored(windowSize: nat, days: nat, frequency: nat, d: nat)
    requires frequency > 0 && windowSize <= d < days
    ensures var ws := Windows(windowSize, days, frequency);
            exists k :: 0 <= k < |ws| && ws[k].testStart <= d < ws[k].testEnd
  {
    var ws := Windows(windowSize, days, frequency);
    TestSlicesTile(windowSize, days, frequency);
    var k := SliceIndex(d - windowSize, frequency, |ws|);
    StepMultiple(k, frequency);
    assert ws[k].testStart <= d < ws[k].testEnd;
  }

  /** The quotient `x / f` names the block of length `f` holding `x`. */
  lemma SliceIndex(x: nat, f: nat, n: nat) returns (k: nat)
    requires f > 0 && x < n * f
    ensures k < n && k * f <= x < k * f + f
  {
    k := x / f;
    var r := x % f;
    assert x == k * f + r;
    if k >= n {
      MonotoneProduct(n, k, f);
    }
  }

  /** No day is scored twice: the test slice holding a day is unique. */
  lemma EveryDayScoredOnce(windowSize: nat, days: nat, frequency: nat, d: nat, k: nat, l: nat)
    requires frequency > 0
    requires var ws := Windows(windowSize, days, frequency);
             k < |ws| && l < |ws| && ws[k].testStart <= d < ws[k].testEnd && ws[l].testStart <= d < ws[l].testEnd
    ensures k == l
  {
    TestSlicesDisjoint(windowSize, days, frequency);
  }
}

=== FILE: series.dfy ===
/** Reductions over return series and return matrices, with exact real arithmetic:
    sums, means, population variance (numpy's default ddof = 0), sample covariance
    (pandas' and np.cov's ddof = 1), boolean-mask filters and column slicing. */
module Series {

  function Sum(s: seq<real>): real
  {
    if |s| == 0 then 0.0 else s[0] + Sum(s[1..])
  }

  function Mean(s: seq<real>): real
    requires |s| > 0
  {
    Sum(s) / (|s| as real)
  }

  /** Sum of squared deviations from `m`. */
  function SquaredDeviations(s: seq<real>, m: real): real
  {
    if |s| == 0 then 0.0 else (s[0] - m) * (s[0] - m) + SquaredDeviations(s[1..], m)
  }

  /** `np.var`: population variance. */
  function Variance(s: seq<real>): real
    requires |s| > 0
  {
    SquaredDeviations(s, Mean(s)) / (|s| as real)
  }

  /** Sum of products of paired deviations from `mx` and `my`. */
  function CrossDeviations(x: seq<real>, y: seq<real>, mx: real, my: real): real
    requires |x| == |y|
  {
    if |x| == 0 then 0.0
    else (x[0] - mx) * (y[0] - my) + CrossDeviations(x[1..], y[1..], mx, my)
  }

  /** Population covariance (ddof = 0). */
  function Covariance(x: seq<real>, y: seq<real>): real
    requires |x| == |y| > 0
  {
    CrossDeviations(x, y, Mean(x), Mean(y)) / (|x| as real)
  }

  /** `np.cov(x, y)[0, 1]` and `DataFrame.cov()`: sample covariance (ddof = 1). */
  function SampleCovariance(x: seq<real>, y: seq<real>): real
    requires |x| == |y| >= 2
  {
    CrossDeviations(x, y, Mean(x), Mean(y)) / ((|x| - 1) as real)
  }

  /** Every element equals the first one. */
  predicate IsFlat(s: seq<real>)
  {
    forall i :: 0 <= i < |s| ==> s[i] == s[0]
  }

  /** `s[s < t]`: the elements strictly below `t`, in order. */
  function Below(s: seq<real>, t: real): (r: seq<real>)
    ensures |r| <= |s|
    ensures forall i :: 0 <= i < |r| ==> r[i] < t
    ensures |r| == 0 <==> forall i :: 0 <= i < |s| ==> s[i] >= t
  {
    if |s| == 0 then []
    else if s[0] < t then [s[0]] + Below(s[1..], t)
    else Below(s[1..], t)
  }

  /** `s[s > t]`: the elements strictly above `t`, in order. */
  function Above(s: seq<real>, t: real): (r: seq<real>)
    ensures |r| <= |s|
    ensures forall i :: 0 <= i < |r| ==> r[i] > t
    ensures |r| == 0 <==> forall i :: 0 <= i < |s| ==> s[i] <= t
    ensures |r| == |s| <==> forall i :: 0 <= i < |s| ==> s[i] > t
  {
    if |s| == 0 then []
    else if s[0] > t then [s[0]] + Above(s[1..], t)
    else Above(s[1..], t)
  }

  /** `s[s <= t]`: the elements at or below `t`, in order. */
  function AtMost(s: seq<real>, t: real): (r: seq<real>)
    ensures |r| <= |s|
    ensures forall i :: 0 <= i < |r| ==> r[i] <= t
    ensures |r| == 0 <==> forall i :: 0 <= i < |s| ==> s[i] > t
    ensures forall i :: 0 <= i < |r| ==> exists j :: 0 <= j < |s| && s[j] == r[i]
  {
    if |s| == 0 then []
    else if s[0] <= t then [s[0]] + AtMost(s[1..], t)
    else AtMost(s[1..], t)
  }

  /** `s - c` for a scalar `c`. */
  function Shift(s: seq<real>, c: real): (r: seq<real>)
    ensures |r| == |s|
    ensures forall i :: 0 <= i < |s| ==> r[i] == s[i] - c
  {
    seq(|s|, i requires 0 <= i < |s| => s[i] - c)
  }

  /** `a - b` element by element. */
  function Difference(a: seq<real>, b: seq<real>): (r: seq<real>)
    requires |a| == |b|
    ensures |r| == |a|
    ensures forall i :: 0 <= i < |a| ==> r[i] == a[i] - b[i]
  {
    seq(|a|, i requires 0 <= i < |a| => a[i] - b[i])
  }

  function Dot(a: seq<real>, b: seq<real>): real
    requires |a| == |b|
  {
    if |a| == 0 then 0.0 else a[0] * b[0] + Dot(a[1..], b[1..])
  }

  /** A matrix stored by rows, every row of width `n`. */
  predicate Rectangular(rows: seq<seq<real>>, n: nat)
  {
    forall t :: 0 <= t < |rows| ==> |rows[t]| == n
  }

  /** A run of consecutive rows of a rectangular array is rectangular. */
  lemma RectangularSlice(rows: seq<seq<real>>, n: nat, lo: nat, hi: nat)
    requires lo <= hi <= |rows| && Rectangular(rows, n)
    ensures Rectangular(rows[lo..hi], n)
  {
    forall t | 0 <= t < hi - lo
      ensures |rows[lo..hi][t]| == n
    {
      assert rows[lo..hi][t] == rows[lo + t];
    }
  }

  /** Matrix-vector product `m @ v`. */
  function MatVec(m: seq<seq<real>>, v: seq<real>): (r: seq<real>)
    requires Rectangular(m, |v|)
    ensures |r| == |m|
    ensures forall i :: 0 <= i < |m| ==> r[i] == Dot(m[i], v)
  {
    seq(|m|, i requires 0 <= i < |m| => Dot(m[i], v))
  }

  /** Column `j` of a rectangular matrix. */
  function Column(rows: seq<seq<real>>, n: nat, j: nat): (c: seq<real>)
    requires Rectangular(rows, n) && j < n
    ensures |c| == |rows|
    ensures forall t :: 0 <= t < |rows| ==> c[t] == rows[t][j]
  {
    seq(|rows|, t requires 0 <= t < |rows| => rows[t][j])
  }

  /** `DataFrame.mean()`: the mean of every column. */
  function ColumnMeans(rows: seq<seq<real>>, n: nat): (r: seq<real>)
    requires |rows| > 0 && Rectangular(rows, n)
    ensures |r| == n
    ensures forall j :: 0 <= j < n ==> r[j] == Mean(Column(rows, n, j))
  {
    seq(n, j requires 0 <= j < n => Mean(Column(rows, n, j)))
  }

  /** The smallest element. */
  function Minimum(s: seq<real>): (m: real)
    requires |s| > 0
    ensures forall i :: 0 <= i < |s| ==> m <= s[i]
    ensures exists i :: 0 <= i < |s| && s[i] == m
  {
    if |s| == 1 then s[0]
    else
      var rest := Minimum(s[1..]);
      assert exists i :: 1 <= i < |s| && s[i] == rest by {
        var j :| 0 <= j < |s[1..]| && s[1..][j] == rest;
        assert s[j + 1] == rest;
      }
      if s[0] <= rest then s[0] else rest
  }

  /** `n` copies of `c`. */
  function Constant(n: nat, c: real): (r: seq<real>)
    ensures |r| == n
    ensures forall i :: 0 <= i < n ==> r[i] == c
  {
    seq(n, _ => c)
  }

  // ---------------------------------------------------------------------------
  // Lemmas
  // ---------------------------------------------------------------------------

  lemma Distribute(a: real, b: real, d: real)
    ensures (a + b) * d == a * d + b * d
  {
  }

  /** A dot product with a constant vector is the constant times the sum. */
  lemma {:induction false} DotConstant(a: seq<real>, c: real)
    ensures Dot(a, Constant(|a|, c)) == c * Sum(a)
  {
    if |a| > 0 {
      DotConstant(a[1..], c);
      assert Constant(|a|, c)[1..] == Constant(|a| - 1, c);
      Distribute(a[0], Sum(a[1..]), c);
    }
  }

  /** The same with the constant vector on the left. */
  lemma {:induction false} DotConstantLeft(x: seq<real>, c: real)
    ensures Dot(Constant(|x|, c), x) == c * Sum(x)
  {
    if |x| > 0 {
      DotConstantLeft(x[1..], c);
      assert Constant(|x|, c)[1..] == Constant(|x| - 1, c);
      Distribute(x[0], Sum(x[1..]), c);
    }
  }

  lemma {:induction false} SumBounds(s: seq<real>, lo: real, hi: real)
    requires forall i :: 0 <= i < |s| ==> lo <= s[i] <= hi
    ensures (|s| as real) * lo <= Sum(s) <= (|s| as real) * hi
  {
    if |s| > 0 {
      SumBounds(s[1..], lo, hi);
      assert (|s| as real) * lo == lo + (|s[1..]| as real) * lo;
      assert (|s| as real) * hi == hi + (|s[1..]| as real) * hi;
    }
  }

  lemma {:induction false} SumAtLeast(s: seq<real>, lo: real)
    requires forall i :: 0 <= i < |s| ==> lo <= s[i]
    ensures (|s| as real) * lo <= Sum(s)
  {
    if |s| > 0 {
      SumAtLeast(s[1..], lo);
      assert (|s| as real) * lo == lo + (|s[1..]| as real) * lo;
    }
  }

  /** The mean lies between any lower and upper bound of the elements. */
  lemma MeanBounds(s: seq<real>, lo: real, hi: real)
    requires |s| > 0
    requires forall i :: 0 <= i < |s| ==> lo <= s[i] <= hi
    ensures lo <= Mean(s) <= hi
  {
    SumBounds(s, lo, hi);
    var n := |s| as real;
    assert Mean(s) * n == Sum(s);
  }

  /** The mean is at least any lower bound of the elements. */
  lemma MeanAtLeast(s: seq<real>, lo: real)
    requires |s| > 0
    requires forall i :: 0 <= i < |s| ==> lo <= s[i]
    ensures lo <= Mean(s)
  {
    SumAtLeast(s, lo);
    var n := |s| as real;
    assert Mean(s) * n == Sum(s);
  }

  lemma SumConstant(n: nat, c: real)
    ensures Sum(Constant(n, c)) == (n as real) * c
  {
    SumBounds(Constant(n, c), c, c);
  }

  /** A sum of strictly negative terms is zero exactly when there are none. */
  lemma {:induction false} SumOfNegatives(s: seq<real>)
    requires forall i :: 0 <= i < |s| ==> s[i] < 0.0
    ensures Sum(s) <= 0.0
    ensures Sum(s) == 0.0 <==> |s| == 0
  {
    if |s| > 0 {
      SumOfNegatives(s[1..]);
    }
  }

  /** A sum of strictly positive terms is zero exactly when there are none. */
  lemma {:induction false} SumOfPositives(s: seq<real>)
    requires forall i :: 0 <= i < |s| ==> s[i] > 0.0
    ensures Sum(s) >= 0.0
    ensures Sum(s) == 0.0 <==> |s| == 0
  {
    if |s| > 0 {
      SumOfPositives(s[1..]);
    }
  }

  lemma SquareNonNegative(d: real)
    ensures d * d >= 0.0
  {
  }

  lemma {:induction false} SquaredDeviationsNonNegative(s: seq<real>, m: real)
    ensures SquaredDeviations(s, m) >= 0.0
  {
    if |s| > 0 {
      SquaredDeviationsNonNegative(s[1..], m);
      SquareNonNegative(s[0] - m);
    }
  }

  /** Deviations from a value every element equals are all zero. */
  lemma {:induction false} SquaredDeviationsFlat(s: seq<real>, m: real)
    requires forall i :: 0 <= i < |s| ==> s[i] == m
    ensures SquaredDeviations(s, m) == 0.0
  {
    if |s| > 0 {
      assert s[0] == m;
      SquaredDeviationsFlat(s[1..], m);
    }
  }

  /** The population variance is non-negative, and zero on a flat series. */
  lemma VarianceFacts(s: seq<real>)
    requires |s| > 0
    ensures Variance(s) >= 0.0
    ensures IsFlat(s) ==> Variance(s) == 0.0
  {
    SquaredDeviationsNonNegative(s, Mean(s));
    if IsFlat(s) {
      SumBounds(s, s[0], s[0]);
      assert Mean(s) == s[0];
      SquaredDeviationsFlat(s, s[0]);
    }
  }

  lemma {:induction false} CrossDeviationsSymmetric(x: seq<real>, y: seq<real>, mx: real, my: real)
    requires |x| == |y|
    ensures CrossDeviations(x, y, mx, my) == CrossDeviations(y, x, my, mx)
  {
    if |x| > 0 {
      CrossDeviationsSymmetric(x[1..], y[1..], mx, my);
    }
  }

  lemma {:induction false} CrossDeviationsDiagonal(x: seq<real>, m: real)
    ensures CrossDeviations(x, x, m, m) == SquaredDeviations(x, m)
  {
    if |x| > 0 {
      CrossDeviationsDiagonal(x[1..], m);
    }
  }

  /** A series of length one is flat. */
  lemma SingletonFlat(s: seq<real>)
    requires |s| == 1
    ensures IsFlat(s)
  {
  }
}
